=== FILE: README.md ===
# Car dashboard data pipeline, in Dafny

A model of the data-shaping core of a browser dashboard over the classic
automobile dataset. Each record has a name, MPG, cylinders, displacement,
horsepower, weight, acceleration, model year and origin. The model covers
what the chart views compute from those records before anything is drawn:

- the origin filter every view applies (`"All"` or one origin);
- the heatmap's year × origin matrix of mean MPG, with 0 for empty cells, and
  where each cell is placed;
- the combined view's per-year averages, its per-origin yearly mean lines and
  their y-axis upper bound;
- the connected scatter plot's row parsing, its per-origin lines sorted by
  year, its fixed x scale and its origin selector;
- linear scales, and the brush handlers that invert a screen rectangle into a
  new zoom domain;
- the legend counts and the origin lists of the selectors.

Numbers are reals, and `Num = Option<real>` stands for a JavaScript number
that may be NaN (`None`).

- Dafny's `==` on `Num` is the SameValueZero equality that `Set`, `Map` and
  d3's grouping use: NaN finds NaN. `StrictEq` is `===`: NaN equals nothing.
- `d3.mean` and `d3.max` are `Numeric.Mean` and `Numeric.Max`. Both skip NaN
  and give `None` when nothing defined is left.
- `?? 0` is `GetOr(0.0)`.

Modules, one per file:

| module | contents |
|---|---|
| `Numeric` | `Option`, `Num`, `Mean`, `Average`, `Max` |
| `Seqs` | `Filter`, `Map`, `Distinct`, an insertion `Sort`, `IndexOf` |
| `Cars` | the record, the three fixed origins |
| `OriginFilter` | `Select` |
| `LinearScale` | d3's linear scale and its inverse |
| `YearGrid` | the year list, the cells and their rectangles |
| `Heatmap` | the standalone heatmap |
| `YearlyMeans` | the combined view's line series |
| `AllVisuals` | the combined view's per-year averages, its heatmap and its bubble zoom |
| `BubbleChart`, `ConnectedScatter`, `Histogram` | the standalone views |

## Model

| member | source | states |
|---|---|---|
| OriginFilter.Select | src/components/AllVisuals.jsx:17-21 | "All" yields the records unchanged. Any other origin yields, in their original order, exactly the records of that origin, each as often as in the input. The standalone views use the same expression. |
| OriginFilter.CountAfterSelect | src/components/BubbleChart.jsx:30-33 | After filtering to an origin, that origin keeps its full count and every other origin counts 0. |
| YearGrid.Years | src/components/Heatmap.jsx:22 | The distinct model years, strictly ascending. Every record's year appears and nothing else does. A NaN year comes last. |
| YearGrid.CellMpg | src/components/Heatmap.jsx:25-36 | A cell with no record of that year and origin with a defined MPG shows 0. |
| YearGrid.CellMpgIsMean | src/components/Heatmap.jsx:25-31 | When some record of that year and origin has a defined MPG, the cell value is the `Average` of those records' defined MPGs: their sum divided by their count. |
| YearGrid.CellMpgWithinBounds | src/components/Heatmap.jsx:25-31 | A cell value is 0 or lies between the smallest and the largest MPG of the records of that year and origin. |
| YearGrid.FilteredCellMpg | src/components/Heatmap.jsx:25-31 | Rolling up the filtered records gives the unfiltered cell for the selected origin (every origin under "All") and 0 for the other origins. |
| YearGrid.MatrixOfFixedOrigins | src/components/Heatmap.jsx:34-40 | The nested loops produce 3 cells per year, year-major: cell k has year k/3 and origin k%3. |
| YearGrid.YearRow | src/components/Heatmap.jsx:197 | In a strictly ascending year list, `indexOf` finds each defined year at its own position. A NaN year is never found (index -1) and sits last. |
| YearGrid.CellPosition | src/components/Heatmap.jsx:196-197 | Cell k with a defined year is drawn at x = 100·(k%3) + 100, y = 25·(k/3) + 20, 90 wide and 20 high. |
| YearGrid.CellsDoNotOverlap | src/components/Heatmap.jsx:196-205 | No two rectangles of the grid overlap. |
| Heatmap.MpgMatrix | src/components/Heatmap.jsx:34-40 | 3·(number of years) cells with year k/3 and origin k%3. The value is the unfiltered cell mean for the selected origin (or any origin under "All") and 0 for the others. |
| Heatmap.EmptyCellIsZero | src/components/Heatmap.jsx:36 | A matrix cell without contributing records holds 0. |
| Heatmap.Rendered | src/components/Heatmap.jsx:193-195 | The drawn cells: the whole matrix under "All"; under one of the three origins exactly that origin's cells, one per year in year order; nothing for any other value. |
| YearlyMeans.Points | src/components/AllVisuals.jsx:163-173 | The points are the entries of the records whose year and metric are both defined, in record order and with duplicates kept: wrapped in `Some`, they are the record entries with the undefined ones filtered out. Every point comes from a record with the same origin, year and metric value, and every such record yields its point. |
| YearlyMeans.Averages | src/components/AllVisuals.jsx:178-183 | Each entry is a year whose points have a defined mean equal to the entry's average. Every year with a defined mean has its entry. Distinct years give distinct entries. |
| YearlyMeans.YearlyProperties | src/components/AllVisuals.jsx:178-189 | A line's entries are strictly ascending by year. There is one per year of the points, and each average is the mean of that year's values. |
| YearlyMeans.Nested | src/components/AllVisuals.jsx:175-191 | One series per origin present in the points, with distinct origins and every point's origin covered. The series follow their origins' first appearance among the points, which fixes the drawing order. Each series holds that origin's yearly means. |
| YearlyMeans.NestedProperties | src/components/AllVisuals.jsx:175-191 | Every series is ascending by year and has an entry for each year of its origin's points. Each average is the mean of the values with that origin and year. |
| YearlyMeans.SeriesAverage | src/components/AllVisuals.jsx:180-182 | An entry of an origin's line averages a nonempty group of that origin's points of that year. |
| YearlyMeans.SeriesMaxIsLargest | src/components/AllVisuals.jsx:199 | The inner `d3.max` of a series is undefined exactly when the series is empty. Otherwise it is one of the series' averages and no average exceeds it. |
| YearlyMeans.LargestOfSeriesMaxes | src/components/AllVisuals.jsx:199 | The outer `d3.max` is undefined exactly when every series is empty. Otherwise it is the largest average of any series. |
| YearlyMeans.DrawLines | src/components/AllVisuals.jsx:135-202 | Nothing is drawn exactly when there are no filtered records (the effect returns early and the previous chart stays). Otherwise the chart holds the series of the records' entries. Its y upper bound is 1 when the largest average is 0, and 1.1 times that average otherwise. When records exist but none yields an entry, there are no series and the bound is 1. |
| YearlyMeans.YUpper | src/components/AllVisuals.jsx:195-202 | The y domain's upper end is 1 when every series is empty or the largest average is 0. Otherwise it is 1.1 times the largest average. |
| AllVisuals.FilteredYears | src/components/AllVisuals.jsx:307-309 | The distinct years of the filtered records, strictly ascending, covering those records' years and no others. |
| AllVisuals.StatsOf | src/components/AllVisuals.jsx:311-317 | An entry keeps its year. The same holds for each of MPG, cylinders and acceleration. A NaN year matches no record, so the mean is undefined. For a defined year, the mean is defined iff some filtered record of that year has the field defined. It then equals the average of those records' defined values (`YearValues`, taken in record order). |
| AllVisuals.YearValuesAgree | src/components/AllVisuals.jsx:311-316 | The values a year's `d3.mean` averages are exactly the defined field values of the records that pass the `===` year test, in record order. |
| AllVisuals.YearMeanWithinBounds | src/components/AllVisuals.jsx:311-317 | Any lower and upper bound on a field's values among one year's records also bounds that year's mean of the field. |
| AllVisuals.AvgPerYear | src/components/AllVisuals.jsx:310-318 | One entry per year, in the years' order. Each entry carries the three means `StatsOf` states. |
| AllVisuals.LineMatchesHeatmap | src/components/AllVisuals.jsx:307-343 | Under one of the three origins, take every index i whose year is defined. A defined line-chart MPG average for that year equals the value of the i-th heatmap cell. An undefined average comes with a cell that holds 0. |
| AllVisuals.AverageMatchesCell | src/components/AllVisuals.jsx:310-330 | Under one origin, a year's line-chart MPG average equals that year's heatmap cell for the origin. |
| AllVisuals.IncludedOrigins | src/components/AllVisuals.jsx:335 | The origins whose cells are pushed: all three under "All", only the selected one if it is one of the three, none otherwise. |
| AllVisuals.HeatmapMatrix | src/components/AllVisuals.jsx:332-343 | Under "All", 3 cells per filtered year, year-major, each the unfiltered cell mean. Under one of the three origins, one cell per filtered year for that origin. Nothing otherwise. |
| AllVisuals.HeatmapMatchesFilteredRollup | src/components/AllVisuals.jsx:325-343 | Every cell equals what a rollup of the filtered records would give, although the rollup runs over all records. |
| AllVisuals.HeatmapEmptyCellIsZero | src/components/AllVisuals.jsx:339 | A cell without contributing records holds 0. |
| AllVisuals.HeatmapAllDrawn | src/components/AllVisuals.jsx:676-677 | The rendering loop's origin test never skips a cell of this matrix. |
| AllVisuals.HeatmapCellPosition | src/components/AllVisuals.jsx:678-679 | Under a single origin, its j-th cell is drawn in that origin's column and row j. |
| AllVisuals.BrushEnd | src/components/AllVisuals.jsx:504-511 | A cleared brush resets the zoom, so both scales are the full scales again. Otherwise the new x domain maps back to the brush's left and right edges, and the new y domain to its bottom and top edges. |
| AllVisuals.ZoomStaysAscending | src/components/AllVisuals.jsx:507-510 | An ordered selection over ascending domains gives ascending zoom domains. |
| AllVisuals.WholeChartSelection | src/components/AllVisuals.jsx:465-511 | Brushing the whole chart recovers the current domains. |
| AllVisuals.ZoomFillsChart | src/components/AllVisuals.jsx:474-483 | After zooming, the brushed rectangle's edges are drawn at the chart's edges. |
| BubbleChart.OriginCounts | src/components/AllVisuals.jsx:588-591 | One legend count per fixed origin, equal to that origin's multiplicity among the records. |
| BubbleChart.Legend | src/components/BubbleChart.jsx:189-193 | No counts before data arrives. Under "All" each origin's count over all records. Under an origin that origin's count, and 0 for the others. |
| BubbleChart.CountsPartitionRecords | src/components/BubbleChart.jsx:189-193 | When every record has one of the three origins, the three counts add up to the number of records. |
| BubbleChart.Capture | src/components/BubbleChart.jsx:65-68 | While either ref is still unset, a render sets both refs to copies of its own scales, so afterwards both are set. Once both are set, a render leaves them unchanged. |
| BubbleChart.FirstRenderKept | src/components/BubbleChart.jsx:65-68 | From empty refs, any series of renders leaves the first render's scales captured. |
| BubbleChart.CaptureStable | src/components/BubbleChart.jsx:65-68 | Once both refs are set, no later render changes them. |
| BubbleChart.BrushEnd | src/components/BubbleChart.jsx:162-184 | A null selection changes nothing. Otherwise the new scales span the plot area [60, 560] × [450, 40], and their domains map back through the old scales to the brush edges (y flipped). |
| BubbleChart.BrushKeepsDomainsAscending | src/components/BubbleChart.jsx:167-175 | An ordered selection over ascending domains gives ascending new domains. |
| BubbleChart.BrushFillsPlot | src/components/BubbleChart.jsx:167-175 | The brushed rectangle's edges are drawn at the plot area's edges. |
| ConnectedScatter.Parse | src/components/ConnectedScatterPlot.jsx:16-30 | Only rows whose four numeric fields all parse are kept, in order. Each is kept as often as it occurs. |
| ConnectedScatter.Grouped | src/components/ConnectedScatterPlot.jsx:71-74 | One nonempty line per origin present, with distinct origins. Lines follow their origins' first appearance among the rows, which decides the colour each origin takes from the ordinal scale. Each line is a permutation of its origin's rows, sorted by year. |
| ConnectedScatter.SelectedGroups | src/components/ConnectedScatterPlot.jsx:41-44 | Under one origin there is at most one line. It holds exactly that origin's rows, and it exists whenever such a row does. |
| ConnectedScatter.XScaleLayout | src/components/ConnectedScatterPlot.jsx:54-57 | Year 70 is drawn at x = 80 and year 82 at x = 540, and later years lie further right. |
| ConnectedScatter.OriginOptions | src/components/ConnectedScatterPlot.jsx:198 | "All" comes first, then each origin of the rows once, in order of first appearance, and nothing else. Every row's origin is offered, and with no row of origin "All" nothing is offered twice. |
| Histogram.Origins | src/components/Histogram.jsx:19 | Each origin of the data once, nothing else. Each listed origin first appears in the data before any origin listed after it. |
| Histogram.CylinderValues | src/components/Histogram.jsx:30-37 | Nothing before data arrives. Then one cylinder value per selected record, in record order. |
| Histogram.CylinderValuesOfSelection | src/components/Histogram.jsx:32-37 | Under "All" the whole cylinder column. Under an origin as many values as it has records, each the cylinders of such a record. |
| Numeric.Mean | src/components/AllVisuals.jsx:181 | Undefined exactly when no value is defined. Otherwise it is the `Average` of the defined values: multiplied by their number, it gives their sum. |
| Numeric.Max | src/components/AllVisuals.jsx:199 | Undefined exactly when no value is defined. Otherwise one of the values and at least every defined one. |

The linear scale (`LinearScale.Apply`, `Invert`) models the d3 library rather
than this repository. The rows above use three of its lemmas:

- `ApplyInvert`: on a nondegenerate scale, applying the scale to an inverted
  pixel gives that pixel back.
- `InvertMonotone` and `ApplyMonotone`: both preserve order.

`InvertApply`, the other direction of the inverse, is stated for
completeness. No row relies on it.

Notes on the brush and the year order:

- Both brush handlers treat only a null selection as cleared. d3-brush
  reports an empty selection as null before `end` fires. A `Some` selection
  from d3-brush therefore always has positive area.
- The standalone bubble chart ignores a null selection and keeps its current
  scales. Only the combined view resets its zoom.
- The code orders the heatmap years with the default `sort()`, which compares
  them as text. The model orders them numerically, which gives the same order
  for two-digit years (see `YearGrid.Years` below).

## Left out

- Binning (`d3.bin` with a threshold count) in the histograms: library code with floating-point bin edges.
- `nice()`, the square-root radius scales, colour scales, band scales and axis ticks: presentation only.
- The connected scatter's y-domain padding (`floor(min·0.95)`, `ceil(max·1.05)`) is not modelled, because it feeds drawing only.
- The extent-based scales of the standalone bubble chart are not modelled. They enter `BubbleChart.Capture` and `BubbleChart.BrushEnd` as parameters.
- The combined view's fixed line-chart scales (`[1970, 1982]`, `[0, 50]`) and its connected-scatter x scale `[70, 82] → [0, innerWidth]` are constant layouts with no logic beyond `LinearScale`.
- DOM construction, tooltips, transitions, image export and the `brush.move(null)` call are left out. That call's follow-up `end` event with a null selection is modelled as the no-op branch of `BubbleChart.BrushEnd`.
- CSV loading and numeric coercion (`+d.Field`) are not modelled. The coercion is a parameter `Coerce` of `ConnectedScatter.Parse`, and records arrive already coerced elsewhere; src/data/DataContext.jsx is not part of this model beyond the record's shape.
- React effect scheduling, refs and `useState` are modelled as explicit states passed in and out (`Originals`, `View`, `Option<Zoom>`).
- Routing and the static pages (src/App.jsx, src/components/Dashboard.jsx) are not part of this model.
- d3-brush turning an empty selection into null is library behaviour and is not modelled. Both `BrushEnd` members accept any rectangle, including zero-area ones that d3-brush never delivers.
- ConnectedScatter.Grouped: does not state that rows of the same year keep their record order, which the stability of `Array.prototype.sort` gives. The contract states sortedness and permutation only.
- Floating point: values are exact reals, so 1.1 is exactly 11/10 and the scale round trips are exact where doubles are only approximate.
- YearGrid.Years: requires every defined year to lie in [10, 100). JavaScript's default `sort()` compares the years as strings; for two-digit years, and NaN (sorted as "NaN", after the digits), that order equals the numeric order modelled here.
- Heatmap.MpgMatrix: the same two-digit-year precondition, inherited from `YearGrid.Years`.
- AllVisuals.FilteredYears: the same two-digit-year precondition, for the same reason.
- The combined view's `+d["Model_Year"] || +d["Model Year"]` is modelled as the record's model year. Records of this dataset carry no `Model_Year` field, so the first operand is always NaN.
- The connected scatter's sort comparator reads a year that every kept row has. `ConnectedScatter.Year` defaults a missing one to 0, a value no kept row ever uses.

=== FILE: allvisuals.dfy ===
/** The combined dashboard: the per-year averages behind its line chart, the
    heatmap matrix it builds from the unfiltered rollup, and the zoom state of
    its bubble chart, set by brushing and cleared by an empty brush. */
module AllVisuals {
  import opened Numeric
  import opened Seqs
  import opened Cars
  import opened OriginFilter
  import opened YearGrid
  import opened LinearScale

  /** Filtering keeps the records' years two-digit. */
  lemma SelectKeepsTwoDigitYears(data: seq<Car>, selected: string)
    requires TwoDigitYears(data)
    ensures TwoDigitYears(Select(data, Origin, selected))
  {
    var r := Select(data, Origin, selected);
    forall i | 0 <= i < |r| && r[i].modelYear.Some?
      ensures 10.0 <= r[i].modelYear.value < 100.0
    {
      assert r[i] in multiset(r);
      assert r[i] in multiset(data);
      var k :| 0 <= k < |data| && data[k] == r[i];
    }
  }

  /** An entry of `avgMpgPerYear`. */
  datatype YearStats = YearStats(year: Num, mpg: Num, cylinders: Num, acceleration: Num)

  /** `(d) => d["Model Year"] === year`: never true for a NaN year. */
  function OfYear(year: Num): Car -> bool
  {
    (c: Car) => StrictEq(c.modelYear, year)
  }

  function Cylinders(c: Car): Num
  {
    c.cylinders
  }

  function Acceleration(c: Car): Num
  {
    c.acceleration
  }

  /** The defined values of `f` among the records whose year is `===` to
      `year`, in record order. */
  function YearValues(records: seq<Car>, year: Num, f: Car -> Num): seq<real>
    decreases |records|
  {
    if |records| == 0 then []
    else
      (if StrictEq(records[0].modelYear, year) && f(records[0]).Some? then [f(records[0]).value] else []) +
      YearValues(records[1..], year, f)
  }

  /** `d3.mean(values, f)` over the records whose year is `===` to `year`,
      specified without `Mean`: undefined for a NaN year and, for a defined
      year, exactly when no record of that year has `f` defined; otherwise the
      average of the defined values. */
  ghost predicate IsYearMean(filtered: seq<Car>, year: Num, f: Car -> Num, m: Num)
  {
    && (year.None? ==> m.None?)
    && (year.Some? ==> (m.Some? <==> exists c :: c in filtered && c.modelYear == year && f(c).Some?))
    && (m.Some? ==> |YearValues(filtered, year, f)| > 0 && m.value == Average(YearValues(filtered, year, f)))
  }

  /** The entry of one year: the means of the MPG, cylinders and acceleration
      of the records whose year is `===` to it. */
  function StatsOf(filtered: seq<Car>, year: Num): (s: YearStats)
    ensures s.year == year
    ensures IsYearMean(filtered, year, Mpg, s.mpg)
    ensures IsYearMean(filtered, year, Cylinders, s.cylinders)
    ensures IsYearMean(filtered, year, Acceleration, s.acceleration)
  {
    var records := Filter(filtered, OfYear(year));
    YearMeanHolds(filtered, year, Mpg);
    YearMeanHolds(filtered, year, Cylinders);
    YearMeanHolds(filtered, year, Acceleration);
    YearStats(year, Mean(Map(records, Mpg)), Mean(Map(records, Cylinders)),
              Mean(Map(records, Acceleration)))
  }

  /** `d3.mean` over the records of one year meets `IsYearMean`. */
  lemma YearMeanHolds(filtered: seq<Car>, year: Num, f: Car -> Num)
    ensures IsYearMean(filtered, year, f, Mean(Map(Filter(filtered, OfYear(year)), f)))
  {
    var xs := Map(Filter(filtered, OfYear(year)), f);
    YearValuesAgree(filtered, year, f);
    YearValuesNonEmpty(filtered, year, f);
    assert Values(xs) == YearValues(filtered, year, f);
    assert Mean(xs).None? <==> |Values(xs)| == 0;
  }

  /** The reference values are those `d3.mean` averages: the defined entries
      of `f` over the records the year filter keeps. */
  lemma {:induction false} YearValuesAgree(records: seq<Car>, year: Num, f: Car -> Num)
    ensures YearValues(records, year, f) == Values(Map(Filter(records, OfYear(year)), f))
    decreases |records|
  {
    if |records| > 0 {
      YearValuesAgree(records[1..], year, f);
      FilteredValuesStep(records, OfYear(year), f);
    }
  }

  /** One step of `Values(Map(Filter(s, p), f))`: the first element's value,
      when it is kept and defined, then those of the rest. */
  lemma FilteredValuesStep<T(!new)>(s: seq<T>, p: T -> bool, f: T -> Num)
    requires |s| > 0
    ensures Values(Map(Filter(s, p), f)) ==
      (if p(s[0]) && f(s[0]).Some? then [f(s[0]).value] else []) + Values(Map(Filter(s[1..], p), f))
  {
    var head := if p(s[0]) then [s[0]] else [];
    var rest := Filter(s[1..], p);
    assert Filter(s, p) == head + rest;
    assert Map(head + rest, f) == Map(head, f) + Map(rest, f);
    ValuesAppend(Map(head, f), Map(rest, f));
  }

  /** A year has defined values exactly when one of its records has `f` defined. */
  lemma {:induction false} YearValuesNonEmpty(records: seq<Car>, year: Num, f: Car -> Num)
    ensures |YearValues(records, year, f)| > 0 <==>
      year.Some? && exists c :: c in records && c.modelYear == year && f(c).Some?
    decreases |records|
  {
    if |records| > 0 {
      YearValuesNonEmpty(records[1..], year, f);
      assert records == [records[0]] + records[1..];
      if exists c :: c in records[1..] && c.modelYear == year && f(c).Some? {
        var c :| c in records[1..] && c.modelYear == year && f(c).Some?;
        assert c in records;
      }
    }
  }

  /** Every reference value lies within bounds of the records' values. */
  lemma {:induction false} YearValuesWithinBounds(records: seq<Car>, year: Num, f: Car -> Num, lo: real, hi: real)
    requires forall c :: c in records && c.modelYear == year && f(c).Some? ==> lo <= f(c).value <= hi
    ensures forall i :: 0 <= i < |YearValues(records, year, f)| ==> lo <= YearValues(records, year, f)[i] <= hi
    decreases |records|
  {
    if |records| > 0 {
      assert records[0] in records;
      forall c | c in records[1..] && c.modelYear == year && f(c).Some? ensures lo <= f(c).value <= hi {
        assert c in records;
      }
      YearValuesWithinBounds(records[1..], year, f, lo, hi);
    }
  }

  /** A year's mean lies within any bounds of the values it averages. */
  lemma YearMeanWithinBounds(filtered: seq<Car>, year: Num, f: Car -> Num, m: Num, lo: real, hi: real)
    requires IsYearMean(filtered, year, f, m)
    requires forall c :: c in filtered && c.modelYear == year && f(c).Some? ==> lo <= f(c).value <= hi
    ensures m.Some? ==> lo <= m.value <= hi
  {
    if m.Some? {
      var vs := YearValues(filtered, year, f);
      YearValuesWithinBounds(filtered, year, f, lo, hi);
      AverageWithinBounds(vs, lo, hi);
    }
  }

  /** `avgMpgPerYear`: one entry per year, in the order of `years`, each with
      the three means of that year's records. */
  function AvgPerYear(filtered: seq<Car>, years: seq<Num>): (stats: seq<YearStats>)
    ensures |stats| == |years|
    ensures forall i :: 0 <= i < |years| ==> stats[i].year == years[i]
    ensures forall i :: 0 <= i < |years| ==>
      && IsYearMean(filtered, years[i], Mpg, stats[i].mpg)
      && IsYearMean(filtered, years[i], Cylinders, stats[i].cylinders)
      && IsYearMean(filtered, years[i], Acceleration, stats[i].acceleration)
  {
    Map(years, (y: Num) => StatsOf(filtered, y))
  }

  /** The year list of the line chart and heatmap: the filtered records'
      distinct years, ascending. */
  function FilteredYears(data: seq<Car>, selected: string): (years: seq<Num>)
    requires TwoDigitYears(data)
    ensures StrictlyAscending(years)
    ensures forall c :: c in Select(data, Origin, selected) ==> c.modelYear in years
    ensures forall y :: y in years ==> exists c :: c in Select(data, Origin, selected) && c.modelYear == y
  {
    var filtered := Select(data, Origin, selected);
    SelectKeepsTwoDigitYears(data, selected);
    var years := Years(filtered);
    forall c | c in filtered ensures c.modelYear in years {
      var k :| 0 <= k < |filtered| && filtered[k] == c;
    }
    forall y | y in years ensures exists c :: c in filtered && c.modelYear == y {
      var k :| 0 <= k < |filtered| && filtered[k].modelYear == y;
      assert filtered[k] in filtered;
    }
    years
  }

  /** For a defined year, the line chart's MPG average over the records of one
      origin is the value of the heatmap cell of that year and origin. */
  lemma AverageMatchesCell(data: seq<Car>, selected: string, year: Num)
    requires selected != AllOrigins
    requires year.Some?
    requires exists c :: c in data && c.modelYear == year && c.origin == selected && c.mpg.Some?
    ensures Mean(Map(Filter(Select(data, Origin, selected), OfYear(year)), Mpg)) ==
      Some(CellMpg(data, year, selected))
  {
    var p := HasOrigin(Origin, selected);
    var q := OfYear(year);
    HasOriginHolds(Origin, selected);
    var both := InCell(year, selected);
    assert forall x: Car :: p(x) == (x.origin == selected);
    assert forall x: Car :: q(x) == (x.modelYear == year);
    assert forall x: Car :: both(x) == (x.modelYear == year && x.origin == selected);
    FilterOfFilter(data, p, q, both);
    CellMpgIsMean(data, year, selected);
  }

  /** Under a single origin, the line chart's MPG point of each defined year is
      the heatmap cell drawn for that year: equal when the average is defined,
      and the cell is the 0 default when it is not. */
  lemma LineMatchesHeatmap(data: seq<Car>, selected: string)
    requires TwoDigitYears(data)
    requires selected in FixedOrigins
    ensures forall i :: 0 <= i < |FilteredYears(data, selected)| ==>
      var avg := AvgPerYear(Select(data, Origin, selected), FilteredYears(data, selected))[i];
      FilteredYears(data, selected)[i].Some? && avg.mpg.Some? ==>
        avg.mpg == Some(HeatmapMatrix(data, selected)[i].mpg)
    ensures forall i :: 0 <= i < |FilteredYears(data, selected)| ==>
      var avg := AvgPerYear(Select(data, Origin, selected), FilteredYears(data, selected))[i];
      FilteredYears(data, selected)[i].Some? && avg.mpg.None? ==>
        HeatmapMatrix(data, selected)[i].mpg == 0.0
  {
    var years := FilteredYears(data, selected);
    var filtered := Select(data, Origin, selected);
    var stats := AvgPerYear(filtered, years);
    var cells := HeatmapMatrix(data, selected);
    assert selected != AllOrigins by { FixedOriginsAreDistinct(); }
    forall i | 0 <= i < |years| && years[i].Some?
      ensures stats[i].mpg.Some? ==> stats[i].mpg == Some(cells[i].mpg)
      ensures stats[i].mpg.None? ==> cells[i].mpg == 0.0
    {
      var year := years[i];
      assert cells[i].mpg == CellMpg(data, year, selected);
      assert stats[i] == StatsOf(filtered, year);
      if stats[i].mpg.Some? {
        var c :| c in filtered && c.modelYear == year && Mpg(c).Some?;
        InSelection(data, selected, c);
        AverageMatchesCell(data, selected, year);
      } else {
        forall c | c in data && c.modelYear == year && c.origin == selected
          ensures c.mpg.None?
        {
          InSelection(data, selected, c);
        }
      }
    }
  }

  /** The records of one origin are the records of the filtered data. */
  lemma InSelection(data: seq<Car>, selected: string, c: Car)
    requires selected != AllOrigins
    ensures c in Select(data, Origin, selected) <==> c in data && c.origin == selected
  {
    var r := Select(data, Origin, selected);
    assert c in r <==> multiset(r)[c] > 0;
    assert c in data <==> multiset(data)[c] > 0;
  }

  predicate Included(selected: string, o: string)
  {
    selected == AllOrigins || selected == o
  }

  /** The origins whose cells are pushed: all three under "All", the selected
      one when it is one of them, none otherwise. */
  function IncludedOrigins(selected: string): (os: seq<string>)
    ensures selected == AllOrigins ==> os == FixedOrigins
    ensures selected in FixedOrigins ==> os == [selected]
    ensures selected != AllOrigins && selected !in FixedOrigins ==> os == []
  {
    var keep := (o: string) => Included(selected, o);
    var os := Filter(FixedOrigins, keep);
    FixedOriginsAreDistinct();
    assert FixedOrigins == [FixedOrigins[0]] + [FixedOrigins[1]] + [FixedOrigins[2]];
    FilterAppend([FixedOrigins[0]] + [FixedOrigins[1]], [FixedOrigins[2]], keep);
    FilterAppend([FixedOrigins[0]], [FixedOrigins[1]], keep);
    os
  }

  /** The rollup over every record, whatever the selection. */
  function UnfilteredValue(data: seq<Car>): (Num, string) -> real
  {
    (year: Num, origin: string) => CellMpg(data, year, origin)
  }

  /** `heatmapMatrix`: for each filtered year, year-major, a cell for each
      included origin valued from the rollup over all records. */
  function HeatmapMatrix(data: seq<Car>, selected: string): (cells: seq<Cell>)
    requires TwoDigitYears(data)
    ensures selected == AllOrigins ==>
      && |cells| == 3 * |FilteredYears(data, selected)|
      && forall k :: 0 <= k < |cells| ==>
           cells[k] == Cell(FilteredYears(data, selected)[k / 3], FixedOrigins[k % 3],
                            CellMpg(data, FilteredYears(data, selected)[k / 3], FixedOrigins[k % 3]))
    ensures selected in FixedOrigins ==>
      && |cells| == |FilteredYears(data, selected)|
      && forall j :: 0 <= j < |cells| ==>
           cells[j] == Cell(FilteredYears(data, selected)[j], selected,
                            CellMpg(data, FilteredYears(data, selected)[j], selected))
    ensures selected != AllOrigins && selected !in FixedOrigins ==> cells == []
  {
    var years := FilteredYears(data, selected);
    var origins := IncludedOrigins(selected);
    var value := UnfilteredValue(data);
    MatrixOfFixedOrigins(years, value);
    MatrixOfOneOrigin(years, selected, value);
    Matrix(years, origins, value)
  }

  /** Every cell of the matrix carries the value the rollup over the filtered
      records would give it: reading the unfiltered rollup changes nothing. */
  lemma HeatmapMatchesFilteredRollup(data: seq<Car>, selected: string, k: nat)
    requires TwoDigitYears(data)
    requires k < |HeatmapMatrix(data, selected)|
    ensures HeatmapMatrix(data, selected)[k].mpg ==
      CellMpg(Select(data, Origin, selected), HeatmapMatrix(data, selected)[k].year,
              HeatmapMatrix(data, selected)[k].origin)
  {
    var c := HeatmapMatrix(data, selected)[k];
    FilteredCellMpg(data, selected, c.year, c.origin);
  }

  /** A cell whose year and origin have no record with a defined MPG is 0. */
  lemma HeatmapEmptyCellIsZero(data: seq<Car>, selected: string, k: nat)
    requires TwoDigitYears(data)
    requires k < |HeatmapMatrix(data, selected)|
    requires forall c :: (c in data && c.modelYear == HeatmapMatrix(data, selected)[k].year &&
      c.origin == HeatmapMatrix(data, selected)[k].origin) ==> c.mpg.None?
    ensures HeatmapMatrix(data, selected)[k].mpg == 0.0
  {
  }

  /** The rendering loop's origin test never skips a cell of this matrix. */
  lemma HeatmapAllDrawn(data: seq<Car>, selected: string)
    requires TwoDigitYears(data)
    ensures Filter(HeatmapMatrix(data, selected), Drawn(selected)) == HeatmapMatrix(data, selected)
  {
    var cells := HeatmapMatrix(data, selected);
    forall c | c in cells ensures Drawn(selected)(c) {
      var k :| 0 <= k < |cells| && cells[k] == c;
    }
    FilterAll(cells, Drawn(selected));
  }

  /** Under a single origin, the cell of year index `j` is drawn in that
      origin's column and row `j`. */
  lemma HeatmapCellPosition(data: seq<Car>, selected: string, i: nat, j: nat)
    requires TwoDigitYears(data)
    requires i < 3 && selected == FixedOrigins[i]
    requires j < |HeatmapMatrix(data, selected)|
    requires FilteredYears(data, selected)[j].Some?
    ensures CellRect(HeatmapMatrix(data, selected)[j], FilteredYears(data, selected)) ==
      Rect(100 * i + 100, 25 * j + 20, 90, 20)
  {
    OriginColumn(i);
    YearRow(FilteredYears(data, selected), j);
  }

  /** The zoomed domains `zoomDomain = { x: [x0, x1], y: [y0, y1] }`. */
  datatype Zoom = Zoom(x0: real, x1: real, y0: real, y1: real)

  const ChartWidth: real := 520.0
  const ChartHeight: real := 320.0

  /** The full scales used while there is no zoom. */
  const FullX: Scale := Scale(0.0, 250.0, 0.0, ChartWidth)
  const FullY: Scale := Scale(0.0, 24.0, ChartHeight, 0.0)

  /** `xScale`: the zoomed x domain onto the chart width, or the full scale. */
  function XScale(zoom: Option<Zoom>): Scale
  {
    match zoom
    case None => FullX
    case Some(z) => Scale(z.x0, z.x1, 0.0, ChartWidth)
  }

  /** `yScale`: the zoomed y domain onto the chart height, flipped, or the full scale. */
  function YScale(zoom: Option<Zoom>): Scale
  {
    match zoom
    case None => FullY
    case Some(z) => Scale(z.y0, z.y1, ChartHeight, 0.0)
  }

  /** The brush `end` handler: a cleared brush removes the zoom so the full
      scales return; otherwise the new domains are the data values the current
      scales put under the brush's edges, the y corners swapped because the y
      range is flipped. */
  function BrushEnd(zoom: Option<Zoom>, selection: Option<Selection>): (next: Option<Zoom>)
    ensures selection.None? ==> next.None? && XScale(next) == FullX && YScale(next) == FullY
    ensures selection.Some? ==> next.Some?
    ensures selection.Some? && XScale(zoom).d0 != XScale(zoom).d1 ==>
      && Apply(XScale(zoom), next.value.x0) == selection.value.x0
      && Apply(XScale(zoom), next.value.x1) == selection.value.x1
    ensures selection.Some? && YScale(zoom).d0 != YScale(zoom).d1 ==>
      && Apply(YScale(zoom), next.value.y0) == selection.value.y1
      && Apply(YScale(zoom), next.value.y1) == selection.value.y0
  {
    match selection
    case None => None
    case Some(s) =>
      var xs := XScale(zoom);
      var ys := YScale(zoom);
      EdgesRoundTrip(xs, s.x0, s.x1);
      EdgesRoundTrip(ys, s.y1, s.y0);
      Some(Zoom(Invert(xs, s.x0), Invert(xs, s.x1), Invert(ys, s.y1), Invert(ys, s.y0)))
  }

  /** Ascending domains stay ascending under a selection whose corners are in order. */
  lemma ZoomStaysAscending(zoom: Option<Zoom>, s: Selection)
    requires zoom.Some? ==> zoom.value.x0 < zoom.value.x1 && zoom.value.y0 < zoom.value.y1
    requires s.x0 <= s.x1 && s.y0 <= s.y1
    ensures BrushEnd(zoom, Some(s)).value.x0 <= BrushEnd(zoom, Some(s)).value.x1
    ensures BrushEnd(zoom, Some(s)).value.y0 <= BrushEnd(zoom, Some(s)).value.y1
  {
    InvertMonotone(XScale(zoom), s.x0, s.x1);
    InvertMonotone(YScale(zoom), s.y0, s.y1);
  }

  /** Brushing the whole chart keeps the current domains; from the unzoomed
      state it yields [0, 250] by [0, 24]. */
  lemma WholeChartSelection(zoom: Option<Zoom>)
    requires zoom.Some? ==> zoom.value.x0 != zoom.value.x1 && zoom.value.y0 != zoom.value.y1
    ensures BrushEnd(zoom, Some(Selection(0.0, 0.0, ChartWidth, ChartHeight))) ==
      Some(Zoom(XScale(zoom).d0, XScale(zoom).d1, YScale(zoom).d0, YScale(zoom).d1))
  {
    InvertEndpoints(XScale(zoom));
    InvertEndpoints(YScale(zoom));
  }

  /** After a zoom the brushed band fills the chart: the data value that was
      under the left edge is drawn at 0 and the one under the right edge at the
      chart width; likewise the bottom edge at the chart height and the top at 0. */
  lemma ZoomFillsChart(zoom: Option<Zoom>, s: Selection)
    requires XScale(zoom).d0 != XScale(zoom).d1 && YScale(zoom).d0 != YScale(zoom).d1
    requires s.x0 != s.x1 && s.y0 != s.y1
    ensures Apply(XScale(BrushEnd(zoom, Some(s))), Invert(XScale(zoom), s.x0)) == 0.0
    ensures Apply(XScale(BrushEnd(zoom, Some(s))), Invert(XScale(zoom), s.x1)) == ChartWidth
    ensures Apply(YScale(BrushEnd(zoom, Some(s))), Invert(YScale(zoom), s.y1)) == ChartHeight
    ensures Apply(YScale(BrushEnd(zoom, Some(s))), Invert(YScale(zoom), s.y0)) == 0.0
  {
    var xs := XScale(zoom);
    var ys := YScale(zoom);
    ApplyInvert(xs, s.x0);
    ApplyInvert(xs, s.x1);
    ApplyInvert(ys, s.y0);
    ApplyInvert(ys, s.y1);
    ApplyEndpoints(XScale(BrushEnd(zoom, Some(s))));
    ApplyEndpoints(YScale(BrushEnd(zoom, Some(s))));
  }
}

=== FILE: bubblechart.dfy ===
/** The standalone bubble chart: horsepower against acceleration for the
    selected origin, the original scales kept on first render, brushing that
    zooms both axes onto the brushed rectangle, and the per-origin legend
    counts. */
module BubbleChart {
  import opened Numeric
  import opened Seqs
  import opened Cars
  import opened OriginFilter
  import opened LinearScale

  const Width: real := 600.0
  const Height: real := 500.0
  const MarginTop: real := 40.0
  const MarginRight: real := 40.0
  const MarginBottom: real := 50.0
  const MarginLeft: real := 60.0

  /** The legend entry counts: for each of the three origins, how many of the
      given records have it. */
  function OriginCounts<T(!new)>(filtered: seq<T>, originOf: T -> string): (counts: seq<nat>)
    ensures |counts| == |FixedOrigins|
    ensures forall i :: 0 <= i < |counts| ==>
      counts[i] == multiset(Map(filtered, originOf))[FixedOrigins[i]]
  {
    var counts := Map(FixedOrigins, (o: string) => OriginCount(filtered, originOf, o));
    forall i | 0 <= i < |counts|
      ensures counts[i] == multiset(Map(filtered, originOf))[FixedOrigins[i]]
    {
      CountIsMultiplicity(filtered, originOf, FixedOrigins[i]);
    }
    counts
  }

  /** Counting the records of origin `o` is counting `o` among their origins. */
  lemma {:induction false} CountIsMultiplicity<T(!new)>(s: seq<T>, originOf: T -> string, o: string)
    ensures OriginCount(s, originOf, o) == multiset(Map(s, originOf))[o]
    decreases |s|
  {
    if |s| > 0 {
      CountIsMultiplicity(s[1..], originOf, o);
      assert Map(s, originOf) == [originOf(s[0])] + Map(s[1..], originOf);
      assert s == [s[0]] + s[1..];
    }
  }

  /** What the effect derives for the legend: nothing while there is no data;
      otherwise the counts over the selected records, where a specific
      origin's own count is its count in all records and the others are 0. */
  function Legend(data: seq<Car>, selected: string): (counts: Option<seq<nat>>)
    ensures |data| == 0 <==> counts.None?
    ensures counts.Some? ==> |counts.value| == 3
    ensures counts.Some? && selected == AllOrigins ==> forall i :: 0 <= i < 3 ==>
      counts.value[i] == OriginCount(data, Origin, FixedOrigins[i])
    ensures counts.Some? && selected != AllOrigins ==> forall i :: 0 <= i < 3 ==>
      counts.value[i] == if FixedOrigins[i] == selected then OriginCount(data, Origin, selected) else 0
  {
    if |data| == 0 then None
    else
      var filtered := Select(data, Origin, selected);
      var counts := OriginCounts(filtered, Origin);
      forall i | 0 <= i < 3
        ensures counts[i] == OriginCount(filtered, Origin, FixedOrigins[i])
      {
        CountIsMultiplicity(filtered, Origin, FixedOrigins[i]);
      }
      if selected != AllOrigins then
        forall i | 0 <= i < 3
          ensures counts[i] == if FixedOrigins[i] == selected then OriginCount(data, Origin, selected) else 0
        {
          CountAfterSelect(data, Origin, selected, FixedOrigins[i]);
        }
        Some(counts)
      else
        Some(counts)
  }

  /** When every record has one of the three origins, the legend counts add
      up to the number of records. */
  lemma CountsPartitionRecords<T(!new)>(filtered: seq<T>, originOf: T -> string)
    requires forall x :: x in filtered ==> originOf(x) in FixedOrigins
    ensures OriginCounts(filtered, originOf)[0] + OriginCounts(filtered, originOf)[1] +
      OriginCounts(filtered, originOf)[2] == |filtered|
  {
    var names := Map(filtered, originOf);
    forall k | 0 <= k < |names| ensures names[k] in FixedOrigins {
      assert filtered[k] in filtered;
    }
    ThreeWayCount(names);
  }

  lemma {:induction false} ThreeWayCount(names: seq<string>)
    requires forall k :: 0 <= k < |names| ==> names[k] in FixedOrigins
    ensures multiset(names)[FixedOrigins[0]] + multiset(names)[FixedOrigins[1]] +
      multiset(names)[FixedOrigins[2]] == |names|
    decreases |names|
  {
    if |names| > 0 {
      ThreeWayCount(names[1..]);
      assert names == [names[0]] + names[1..];
      assert multiset(names) == multiset{names[0]} + multiset(names[1..]);
      FixedOriginsAreDistinct();
    }
  }

  /** The refs holding the scales of the first render. */
  datatype Originals = Originals(x: Option<Scale>, y: Option<Scale>)

  /** One render's capture: both refs are (re)set from this render's scales
      when either is still empty, and left alone otherwise. Both refs are set
      together, so they are empty or set as a pair. */
  function Capture(refs: Originals, x: Scale, y: Scale): (next: Originals)
    ensures next.x.Some? && next.y.Some?
    ensures refs.x.Some? && refs.y.Some? ==> next == refs
    ensures refs.x.None? || refs.y.None? ==> next == Originals(Some(x), Some(y))
  {
    if refs.x.None? || refs.y.None? then Originals(Some(x), Some(y)) else refs
  }

  /** The refs after a series of renders, each with its own scales. */
  function CaptureAll(refs: Originals, renders: seq<(Scale, Scale)>): Originals
    decreases |renders|
  {
    if |renders| == 0 then refs
    else CaptureAll(Capture(refs, renders[0].0, renders[0].1), renders[1..])
  }

  /** Starting from empty refs, any series of renders leaves the first
      render's scales in the refs. */
  lemma {:induction false} FirstRenderKept(renders: seq<(Scale, Scale)>)
    requires |renders| > 0
    ensures CaptureAll(Originals(None, None), renders) ==
      Originals(Some(renders[0].0), Some(renders[0].1))
  {
    CaptureStable(Originals(Some(renders[0].0), Some(renders[0].1)), renders[1..]);
  }

  /** Once both refs are set, no render changes them. */
  lemma {:induction false} CaptureStable(refs: Originals, renders: seq<(Scale, Scale)>)
    requires refs.x.Some? && refs.y.Some?
    ensures CaptureAll(refs, renders) == refs
    decreases |renders|
  {
    if |renders| > 0 {
      CaptureStable(refs, renders[1..]);
    }
  }

  /** The scales currently drawn. */
  datatype View = View(x: Scale, y: Scale)

  /** The brush `end` handler: without a selection (as when the handler's own
      `brush.move(null)` fires it) nothing changes; otherwise the new x domain
      runs from the data value under the left edge to the one under the right
      edge and the new y domain from the one under the bottom edge to the one
      under the top edge, drawn across the plot area. */
  function BrushEnd(view: View, selection: Option<Selection>): (next: View)
    ensures selection.None? ==> next == view
    ensures selection.Some? ==>
      && next.x.r0 == MarginLeft && next.x.r1 == Width - MarginRight
      && next.y.r0 == Height - MarginBottom && next.y.r1 == MarginTop
    ensures selection.Some? && view.x.d0 != view.x.d1 && view.x.r0 != view.x.r1 ==>
      && Apply(view.x, next.x.d0) == selection.value.x0
      && Apply(view.x, next.x.d1) == selection.value.x1
    ensures selection.Some? && view.y.d0 != view.y.d1 && view.y.r0 != view.y.r1 ==>
      && Apply(view.y, next.y.d0) == selection.value.y1
      && Apply(view.y, next.y.d1) == selection.value.y0
  {
    match selection
    case None => view
    case Some(s) =>
      EdgesRoundTrip(view.x, s.x0, s.x1);
      EdgesRoundTrip(view.y, s.y1, s.y0);
      View(Scale(Invert(view.x, s.x0), Invert(view.x, s.x1), MarginLeft, Width - MarginRight),
           Scale(Invert(view.y, s.y1), Invert(view.y, s.y0), Height - MarginBottom, MarginTop))
  }

  /** With increasing domains, an increasing x range and a decreasing y range,
      a selection whose corners are in order gives ascending new domains. */
  lemma BrushKeepsDomainsAscending(view: View, s: Selection)
    requires view.x.d0 < view.x.d1 && view.x.r0 < view.x.r1
    requires view.y.d0 < view.y.d1 && view.y.r1 < view.y.r0
    requires s.x0 <= s.x1 && s.y0 <= s.y1
    ensures BrushEnd(view, Some(s)).x.d0 <= BrushEnd(view, Some(s)).x.d1
    ensures BrushEnd(view, Some(s)).y.d0 <= BrushEnd(view, Some(s)).y.d1
  {
    InvertMonotone(view.x, s.x0, s.x1);
    InvertMonotone(view.y, s.y0, s.y1);
  }

  /** The new x scale draws the value under the brush's left edge at the left
      margin and the one under its right edge at `width - margin.right`; the
      new y scale draws the value under the bottom edge at
      `height - margin.bottom` and the one under the top edge at the top margin. */
  lemma BrushFillsPlot(view: View, s: Selection)
    requires view.x.d0 != view.x.d1 && view.x.r0 != view.x.r1
    requires view.y.d0 != view.y.d1 && view.y.r0 != view.y.r1
    requires s.x0 != s.x1 && s.y0 != s.y1
    ensures Apply(BrushEnd(view, Some(s)).x, Invert(view.x, s.x0)) == MarginLeft
    ensures Apply(BrushEnd(view, Some(s)).x, Invert(view.x, s.x1)) == Width - MarginRight
    ensures Apply(BrushEnd(view, Some(s)).y, Invert(view.y, s.y1)) == Height - MarginBottom
    ensures Apply(BrushEnd(view, Some(s)).y, Invert(view.y, s.y0)) == MarginTop
  {
    EdgesRoundTrip(view.x, s.x0, s.x1);
    EdgesRoundTrip(view.y, s.y1, s.y0);
    ApplyEndpoints(BrushEnd(view, Some(s)).x);
    ApplyEndpoints(BrushEnd(view, Some(s)).y);
  }
}

=== FILE: cars.dfy ===
/** The automobile record every view reads, and the fixed vocabularies the
    views share: the three origins, the "All" selection and the metrics. */
module Cars {
  import opened Numeric

  /** One dataset row after numeric coercion; every numeric field may be NaN. */
  datatype Car = Car(
    name: string,
    mpg: Num,
    cylinders: Num,
    displacement: Num,
    horsepower: Num,
    weight: Num,
    acceleration: Num,
    modelYear: Num,
    origin: string)

  /** A row as the CSV loader delivers it: every column as text. */
  datatype RawRow = RawRow(
    name: string,
    mpg: string,
    cylinders: string,
    displacement: string,
    horsepower: string,
    weight: string,
    acceleration: string,
    modelYear: string,
    origin: string)

  /** JavaScript's unary `+` on a CSV field: a number, or NaN (`None`).
      Its rules for text are not modelled; every use takes it as a parameter. */
  type Coerce = string -> Num

  /** The value of the origin selector that disables filtering. */
  const AllOrigins: string := "All"

  /** The origins in the fixed order every view lays them out in. */
  const FixedOrigins: seq<string> := ["American", "European", "Japanese"]

  lemma FixedOriginsAreDistinct()
    ensures |FixedOrigins| == 3
    ensures forall i, j :: 0 <= i < j < 3 ==> FixedOrigins[i] != FixedOrigins[j]
    ensures AllOrigins !in FixedOrigins
  {
  }

  function Origin(c: Car): string
  {
    c.origin
  }

  /** The metric selector of the connected scatter plots. */
  datatype Metric = MPG | Cylinders | Acceleration

  function MetricValue(c: Car, m: Metric): Num
  {
    match m
    case MPG => c.mpg
    case Cylinders => c.cylinders
    case Acceleration => c.acceleration
  }
}

=== FILE: connectedscatter.dfy ===
/** The standalone connected scatter plot: it loads its own rows, keeps those
    whose year, MPG, cylinders and acceleration all parse, draws one line per
    origin through that origin's records sorted by year, and offers "All" plus
    every origin in the data as selector options. */
module ConnectedScatter {
  import opened Numeric
  import opened Seqs
  import opened Cars
  import opened OriginFilter
  import opened LinearScale

  /** A parsed row: `Model_Year`, `MPG`, `Cylinders`, `Acceleration`, `Origin`. */
  datatype Row = Row(modelYear: Num, mpg: Num, cylinders: Num, acceleration: Num, origin: string)

  function ParseFields(raw: RawRow, coerce: Coerce): Row
  {
    Row(coerce(raw.modelYear), coerce(raw.mpg), coerce(raw.cylinders),
        coerce(raw.acceleration), raw.origin)
  }

  /** None of the four numeric fields is NaN. */
  predicate Complete(r: Row)
  {
    r.modelYear.Some? && r.mpg.Some? && r.cylinders.Some? && r.acceleration.Some?
  }

  /** The loader: every row parsed, the incomplete ones dropped. */
  function Parse(raws: seq<RawRow>, coerce: Coerce): (rows: seq<Row>)
    ensures |rows| <= |raws|
    ensures forall i :: 0 <= i < |rows| ==> Complete(rows[i])
    ensures forall r :: multiset(rows)[r] == if Complete(r) then multiset(Map(raws, (raw: RawRow) => ParseFields(raw, coerce)))[r] else 0
    ensures IsSubsequence(rows, Map(raws, (raw: RawRow) => ParseFields(raw, coerce)))
  {
    var parsed := Map(raws, (raw: RawRow) => ParseFields(raw, coerce));
    FilterCounts(parsed, Complete);
    FilterSubsequence(parsed, Complete);
    Filter(parsed, Complete)
  }

  function RowOrigin(r: Row): string
  {
    r.origin
  }

  /** The year of a kept row; every kept row has one. */
  function Year(r: Row): real
  {
    r.modelYear.GetOr(0.0)
  }

  /** `(a, b) => a.Model_Year - b.Model_Year` as an order. */
  predicate ByYear(a: Row, b: Row)
  {
    Year(a) <= Year(b)
  }

  lemma ByYearIsTotalPreorder()
    ensures TotalPreorder(ByYear)
  {
  }

  /** One line: an origin and its records in year order. */
  datatype Group = Group(origin: string, rows: seq<Row>)

  /** `d3.group(filteredData, (d) => d.Origin)` with each group sorted by
      year: one group per origin in order of first appearance, each a
      permutation of that origin's records sorted by year. */
  function Grouped(filtered: seq<Row>): (groups: seq<Group>)
    ensures forall i, j :: 0 <= i < j < |groups| ==> groups[i].origin != groups[j].origin
    ensures forall r :: r in filtered ==> exists i :: 0 <= i < |groups| && groups[i].origin == r.origin
    ensures forall i, j :: 0 <= i < j < |groups| ==>
      FirstBefore(Map(filtered, RowOrigin), groups[i].origin, groups[j].origin)
    ensures forall i :: 0 <= i < |groups| ==> |groups[i].rows| > 0
    ensures forall i :: 0 <= i < |groups| ==> SortedBy(groups[i].rows, ByYear)
    ensures forall i, r :: 0 <= i < |groups| ==>
      multiset(groups[i].rows)[r] == if r.origin == groups[i].origin then multiset(filtered)[r] else 0
  {
    var origins := Distinct(Map(filtered, RowOrigin));
    var groups := Map(origins, (o: string) => GroupOf(filtered, o));
    GroupedOrigins(filtered, origins, groups);
    GroupsNonEmpty(filtered, origins, groups);
    DistinctFirstAppearance(Map(filtered, RowOrigin));
    groups
  }

  lemma GroupedOrigins(filtered: seq<Row>, origins: seq<string>, groups: seq<Group>)
    requires origins == Distinct(Map(filtered, RowOrigin))
    requires |groups| == |origins|
    requires forall i :: 0 <= i < |groups| ==> groups[i].origin == origins[i]
    ensures forall i, j :: 0 <= i < j < |groups| ==> groups[i].origin != groups[j].origin
    ensures forall r :: r in filtered ==> exists i :: 0 <= i < |groups| && groups[i].origin == r.origin
  {
    forall r | r in filtered ensures exists i :: 0 <= i < |groups| && groups[i].origin == r.origin {
      var k :| 0 <= k < |filtered| && filtered[k] == r;
      assert Map(filtered, RowOrigin)[k] == r.origin;
      assert r.origin in origins;
      var i :| 0 <= i < |origins| && origins[i] == r.origin;
      assert groups[i].origin == r.origin;
    }
  }

  lemma GroupsNonEmpty(filtered: seq<Row>, origins: seq<string>, groups: seq<Group>)
    requires origins == Distinct(Map(filtered, RowOrigin))
    requires |groups| == |origins|
    requires forall i :: 0 <= i < |groups| ==> groups[i].origin == origins[i]
    requires forall i, r :: 0 <= i < |groups| ==>
      multiset(groups[i].rows)[r] == if r.origin == groups[i].origin then multiset(filtered)[r] else 0
    ensures forall i :: 0 <= i < |groups| ==> |groups[i].rows| > 0
  {
    forall i | 0 <= i < |groups| ensures |groups[i].rows| > 0 {
      assert origins[i] in Map(filtered, RowOrigin);
      var k :| 0 <= k < |filtered| && Map(filtered, RowOrigin)[k] == origins[i];
      assert filtered[k] in multiset(filtered);
      assert multiset(groups[i].rows)[filtered[k]] > 0;
    }
  }

  /** Under a specific origin the filtered rows make at most one line: every
      group has that origin and holds exactly that origin's rows, and there is
      one such group as soon as any row has the origin. */
  lemma SelectedGroups(rows: seq<Row>, o: string)
    requires o != AllOrigins
    ensures |Grouped(Select(rows, RowOrigin, o))| <= 1
    ensures forall i :: 0 <= i < |Grouped(Select(rows, RowOrigin, o))| ==>
      Grouped(Select(rows, RowOrigin, o))[i].origin == o
    ensures forall i, r :: 0 <= i < |Grouped(Select(rows, RowOrigin, o))| ==>
      multiset(Grouped(Select(rows, RowOrigin, o))[i].rows)[r] ==
        if r.origin == o then multiset(rows)[r] else 0
    ensures Occurs(rows, o) ==> |Grouped(Select(rows, RowOrigin, o))| == 1
  {
    var filtered := Select(rows, RowOrigin, o);
    var groups := Grouped(filtered);
    GroupsOfOneOrigin(filtered, o);
    if Occurs(rows, o) {
      var r :| r in rows && r.origin == o;
      assert r in multiset(filtered);
      assert r in filtered;
    }
  }

  /** Rows that all have origin `o` make at most one group, of origin `o`. */
  lemma GroupsOfOneOrigin(filtered: seq<Row>, o: string)
    requires forall r :: r in filtered ==> r.origin == o
    ensures |Grouped(filtered)| <= 1
    ensures forall i :: 0 <= i < |Grouped(filtered)| ==> Grouped(filtered)[i].origin == o
  {
    var groups := Grouped(filtered);
    assert |groups| > 1 ==> groups[0].origin != groups[1].origin;
    GroupsHaveOrigin(filtered, o);
  }

  lemma GroupsHaveOrigin(filtered: seq<Row>, o: string)
    requires forall r :: r in filtered ==> r.origin == o
    ensures forall i :: 0 <= i < |Grouped(filtered)| ==> Grouped(filtered)[i].origin == o
  {
    var groups := Grouped(filtered);
    forall i | 0 <= i < |groups| ensures groups[i].origin == o {
      var r := groups[i].rows[0];
      assert r in multiset(groups[i].rows);
      assert r in multiset(filtered);
    }
  }

  /** One origin's records, sorted by year. */
  function GroupOf(filtered: seq<Row>, o: string): (g: Group)
    ensures g.origin == o
    ensures SortedBy(g.rows, ByYear)
    ensures forall r :: multiset(g.rows)[r] == if r.origin == o then multiset(filtered)[r] else 0
  {
    var p := HasOrigin(RowOrigin, o);
    HasOriginHolds(RowOrigin, o);
    assert forall r: Row :: p(r) == (r.origin == o);
    var mine := Filter(filtered, p);
    FilterCounts(filtered, p);
    ByYearIsTotalPreorder();
    var sorted := Sort(mine, ByYear);
    assert multiset(sorted) == multiset(mine);
    Group(o, sorted)
  }

  /** The plot area's horizontal extent. */
  const Width: real := 600.0
  const MarginLeft: real := 80.0
  const MarginRight: real := 60.0

  /** The x scale: model years 70 to 82 across the plot area. */
  const XScale: Scale := Scale(70.0, 82.0, MarginLeft, Width - MarginRight)

  /** The x scale puts 70 at the left margin and 82 at the right, and keeps
      later years to the right. */
  lemma XScaleLayout(year: real, year': real)
    requires year <= year'
    ensures Apply(XScale, 70.0) == MarginLeft
    ensures Apply(XScale, 82.0) == Width - MarginRight
    ensures Apply(XScale, year) <= Apply(XScale, year')
  {
    ApplyEndpoints(XScale);
    ApplyMonotone(XScale, year, year');
  }

  /** Some row has origin `o`. */
  ghost predicate Occurs(rows: seq<Row>, o: string)
  {
    exists r :: r in rows && r.origin == o
  }

  /** `["All", ...new Set(data.map((d) => d.Origin))]`: "All", then each
      origin of the rows once, in order of first appearance. */
  function OriginOptions(rows: seq<Row>): (options: seq<string>)
    ensures |options| > 0 && options[0] == AllOrigins
    ensures forall i :: 1 <= i < |options| ==> Occurs(rows, options[i])
    ensures forall r :: r in rows ==> r.origin in options
    ensures NoDuplicates(options[1..])
    ensures InFirstAppearanceOrder(options[1..], Map(rows, RowOrigin))
    ensures (forall r :: r in rows ==> r.origin != AllOrigins) ==> NoDuplicates(options)
  {
    var distinct := Distinct(Map(rows, RowOrigin));
    OptionsOccur(rows, distinct);
    OptionsCover(rows, distinct);
    DistinctFirstAppearance(Map(rows, RowOrigin));
    assert ([AllOrigins] + distinct)[1..] == distinct;
    if forall r :: r in rows ==> r.origin != AllOrigins then
      assert AllOrigins !in distinct by {
        forall m | 0 <= m < |distinct| ensures distinct[m] != AllOrigins {
          assert Occurs(rows, distinct[m]);
        }
      }
      PrependKeepsNoDuplicates(AllOrigins, distinct);
      [AllOrigins] + distinct
    else
      [AllOrigins] + distinct
  }

  lemma OptionsOccur(rows: seq<Row>, distinct: seq<string>)
    requires distinct == Distinct(Map(rows, RowOrigin))
    ensures forall i :: 0 <= i < |distinct| ==> Occurs(rows, distinct[i])
  {
    var names := Map(rows, RowOrigin);
    forall i | 0 <= i < |distinct| ensures Occurs(rows, distinct[i]) {
      assert distinct[i] in names;
      var k :| 0 <= k < |rows| && names[k] == distinct[i];
      assert rows[k] in rows;
    }
  }

  lemma OptionsCover(rows: seq<Row>, distinct: seq<string>)
    requires distinct == Distinct(Map(rows, RowOrigin))
    ensures forall r :: r in rows ==> r.origin in distinct
  {
    var names := Map(rows, RowOrigin);
    forall r | r in rows ensures r.origin in distinct {
      var k :| 0 <= k < |rows| && rows[k] == r;
      assert names[k] == r.origin;
    }
  }
}

=== FILE: filter.dfy ===
/** The origin filter every view applies to its records: "All" passes the
    data through untouched, any other value keeps the matching records in
    their original order. */
module OriginFilter {
  import opened Seqs
  import opened Cars

  /** `selected === "All" ? data : data.filter((d) => d.Origin === selected)`,
      over any record type whose origin `originOf` reads. */
  function Select<T(!new)>(data: seq<T>, originOf: T -> string, selected: string): (r: seq<T>)
    ensures selected == AllOrigins ==> r == data
    ensures selected != AllOrigins ==> forall i :: 0 <= i < |r| ==> originOf(r[i]) == selected
    ensures selected != AllOrigins ==>
      forall x :: multiset(r)[x] == if originOf(x) == selected then multiset(data)[x] else 0
    ensures selected != AllOrigins ==> IsSubsequence(r, data)
  {
    if selected == AllOrigins then data
    else
      FilterCounts(data, HasOrigin(originOf, selected));
      FilterSubsequence(data, HasOrigin(originOf, selected));
      Filter(data, HasOrigin(originOf, selected))
  }

  /** `(d) => d.Origin === o`. */
  function HasOrigin<T>(originOf: T -> string, o: string): T -> bool
  {
    x => originOf(x) == o
  }

  lemma HasOriginHolds<T>(originOf: T -> string, o: string)
    ensures forall x :: HasOrigin(originOf, o)(x) == (originOf(x) == o)
  {
  }

  /** The number of records with origin `o` (the legend counts). */
  function OriginCount<T(!new)>(data: seq<T>, originOf: T -> string, o: string): nat
  {
    CountWhere(data, HasOrigin(originOf, o))
  }

  /** After selecting origin `o`, the count of `o` is unchanged and every other
      origin counts zero. */
  lemma {:induction false} CountAfterSelect<T(!new)>(data: seq<T>, originOf: T -> string, o: string, o': string)
    requires o != AllOrigins
    ensures OriginCount(Select(data, originOf, o), originOf, o') ==
      if o' == o then OriginCount(data, originOf, o) else 0
    decreases |data|
  {
    if |data| > 0 {
      CountAfterSelect(data[1..], originOf, o, o');
      assert data == [data[0]] + data[1..];
      FilterAppend([data[0]], data[1..], HasOrigin(originOf, o));
      FilterAppend([data[0]], data[1..], HasOrigin(originOf, o'));
      var kept := Filter([data[0]], HasOrigin(originOf, o));
      FilterAppend(kept, Filter(data[1..], HasOrigin(originOf, o)), HasOrigin(originOf, o'));
    }
  }
}

=== FILE: grid.dfy ===
/** The year-by-origin MPG grid shared by the heatmap views: the list of
    distinct model years, the two-level rollup of mean MPG keyed by year then
    origin, and the cross product of years and origins with a 0 default for
    combinations that have no value. */
module YearGrid {
  import opened Numeric
  import opened Seqs
  import opened Cars
  import opened OriginFilter

  /** The order `Array.prototype.sort` without a comparator puts model years
      in: it compares their decimal text, which for years in [10, 100) is
      numeric order, with "NaN" after every digit string. */
  predicate YearLe(a: Num, b: Num)
  {
    b.None? || (a.Some? && a.value <= b.value)
  }

  /** The years for which the textual sort agrees with `YearLe`. */
  ghost predicate TwoDigitYears(data: seq<Car>)
  {
    forall i :: 0 <= i < |data| && data[i].modelYear.Some? ==>
      10.0 <= data[i].modelYear.value < 100.0
  }

  lemma YearLeIsTotalPreorder()
    ensures TotalPreorder(YearLe)
  {
  }

  /** Defined years strictly ascending, NaN (at most once) last. */
  ghost predicate StrictlyAscending(ys: seq<Num>)
  {
    forall i, j :: 0 <= i < j < |ys| ==>
      ys[i].Some? && (ys[j].None? || ys[i].value < ys[j].value)
  }

  function ModelYear(c: Car): Num
  {
    c.modelYear
  }

  /** `Array.from(new Set(data.map((d) => d["Model Year"]))).sort()`. */
  function Years(data: seq<Car>): (ys: seq<Num>)
    requires TwoDigitYears(data)
    ensures StrictlyAscending(ys)
    ensures forall i :: 0 <= i < |data| ==> data[i].modelYear in ys
    ensures forall y :: y in ys ==> exists i :: 0 <= i < |data| && data[i].modelYear == y
  {
    var distinct := Distinct(Map(data, ModelYear));
    YearLeIsTotalPreorder();
    var ys := Sort(distinct, YearLe);
    SortedDistinctYears(distinct, ys);
    YearsOfData(data, distinct, ys);
    ys
  }

  lemma SortedDistinctYears(distinct: seq<Num>, ys: seq<Num>)
    requires NoDuplicates(distinct)
    requires multiset(ys) == multiset(distinct)
    requires SortedBy(ys, YearLe)
    ensures StrictlyAscending(ys)
  {
    PermutationNoDuplicates(distinct, ys);
  }

  lemma YearsOfData(data: seq<Car>, distinct: seq<Num>, ys: seq<Num>)
    requires forall y :: y in distinct <==> y in Map(data, ModelYear)
    requires multiset(ys) == multiset(distinct)
    ensures forall i :: 0 <= i < |data| ==> data[i].modelYear in ys
    ensures forall y :: y in ys ==> exists i :: 0 <= i < |data| && data[i].modelYear == y
  {
    var all := Map(data, ModelYear);
    forall y ensures y in ys <==> y in all {
      assert y in ys <==> y in multiset(ys);
      assert y in distinct <==> y in multiset(distinct);
    }
    forall i | 0 <= i < |data| ensures data[i].modelYear in ys {
      assert all[i] == data[i].modelYear;
    }
    forall y | y in ys ensures exists i :: 0 <= i < |data| && data[i].modelYear == y {
      var i :| 0 <= i < |all| && all[i] == y;
      assert data[i].modelYear == y;
    }
  }

  /** The records feeding the rollup cell (`year`, `origin`); grouping keys
      compare as in a JavaScript `Map`, so a NaN year groups with NaN. */
  function CellRecords(data: seq<Car>, year: Num, origin: string): seq<Car>
  {
    Filter(data, InCell(year, origin))
  }

  function InCell(year: Num, origin: string): Car -> bool
  {
    (c: Car) => c.modelYear == year && c.origin == origin
  }

  function Mpg(c: Car): Num
  {
    c.mpg
  }

  /** `d3.rollup(data, (v) => d3.mean(v, (d) => d.MPG), year, origin)
      .get(year)?.get(origin) ?? 0`: the mean MPG of the cell's records, and 0
      both when the cell has no record and when none of its MPGs is defined. */
  function CellMpg(data: seq<Car>, year: Num, origin: string): (m: real)
    ensures (forall c :: (c in data && c.modelYear == year && c.origin == origin) ==> c.mpg.None?) ==>
      m == 0.0
  {
    var mpgs := Map(CellRecords(data, year, origin), Mpg);
    Mean(mpgs).GetOr(0.0)
  }

  /** A cell's value is either the 0 default or lies within the range of the
      MPGs of the records with that year and origin. */
  lemma CellMpgWithinBounds(data: seq<Car>, year: Num, origin: string, lo: real, hi: real)
    requires forall c :: (c in data && c.modelYear == year && c.origin == origin && c.mpg.Some?) ==>
      lo <= c.mpg.value <= hi
    ensures CellMpg(data, year, origin) == 0.0 || lo <= CellMpg(data, year, origin) <= hi
  {
    var records := CellRecords(data, year, origin);
    var mpgs := Map(records, Mpg);
    forall i | 0 <= i < |mpgs| && mpgs[i].Some? ensures lo <= mpgs[i].value <= hi {
      assert records[i] in records;
    }
    MeanWithinBounds(mpgs, lo, hi);
  }

  /** When some record of that year and origin has a defined MPG, the rollup
      mean is a number and the cell is the average of the defined MPGs. */
  lemma CellMpgIsMean(data: seq<Car>, year: Num, origin: string)
    requires exists c :: c in data && c.modelYear == year && c.origin == origin && c.mpg.Some?
    ensures Mean(Map(CellRecords(data, year, origin), Mpg)).Some?
    ensures |Values(Map(CellRecords(data, year, origin), Mpg))| > 0
    ensures CellMpg(data, year, origin) == Average(Values(Map(CellRecords(data, year, origin), Mpg)))
  {
    var c :| c in data && c.modelYear == year && c.origin == origin && c.mpg.Some?;
    var records := CellRecords(data, year, origin);
    assert c in records;
    var i :| 0 <= i < |records| && records[i] == c;
    assert Map(records, Mpg)[i].Some?;
  }

  /** Filtering before the rollup keeps the selected origin's cells as the
      rollup over all records would give them, and leaves the other origins'
      cells at the 0 default. */
  lemma FilteredCellMpg(data: seq<Car>, selected: string, year: Num, origin: string)
    ensures CellMpg(Select(data, Origin, selected), year, origin) ==
      if selected == AllOrigins || origin == selected then CellMpg(data, year, origin) else 0.0
  {
    if selected != AllOrigins {
      if origin == selected {
        SelectedCellRecords(data, year, origin);
      } else {
        OtherCellRecords(data, selected, year, origin);
      }
    }
  }

  lemma SelectedCellRecords(data: seq<Car>, year: Num, origin: string)
    requires origin != AllOrigins
    ensures CellRecords(Select(data, Origin, origin), year, origin) == CellRecords(data, year, origin)
  {
    var p := HasOrigin(Origin, origin);
    var q := InCell(year, origin);
    HasOriginHolds(Origin, origin);
    assert forall x: Car :: p(x) == (x.origin == origin);
    assert forall x: Car :: q(x) == (x.modelYear == year && x.origin == origin);
    FilterOfFilter(data, p, q, q);
  }

  lemma OtherCellRecords(data: seq<Car>, selected: string, year: Num, origin: string)
    requires selected != AllOrigins && origin != selected
    ensures CellRecords(Select(data, Origin, selected), year, origin) == []
  {
    var p := HasOrigin(Origin, selected);
    var q := InCell(year, origin);
    var nothing := (c: Car) => false;
    HasOriginHolds(Origin, selected);
    assert forall x: Car :: p(x) == (x.origin == selected);
    assert forall x: Car :: q(x) == (x.modelYear == year && x.origin == origin);
    FilterOfFilter(data, p, q, nothing);
    FilterNone(data, nothing);
  }

  /** One heatmap cell: the pair it stands for and its MPG. */
  datatype Cell = Cell(year: Num, origin: string, mpg: real)

  /** Whether the rendering loop draws a cell: skipped when a specific origin
      is selected and the cell is of another origin. */
  function Drawn(selected: string): Cell -> bool
  {
    (c: Cell) => !(selected != AllOrigins && c.origin != selected)
  }

  function Row(year: Num, origins: seq<string>, value: (Num, string) -> real): (row: seq<Cell>)
    ensures |row| == |origins|
    ensures forall i :: 0 <= i < |origins| ==>
      row[i] == Cell(year, origins[i], value(year, origins[i]))
  {
    seq(|origins|, i requires 0 <= i < |origins| => Cell(year, origins[i], value(year, origins[i])))
  }

  /** `years.forEach((year) => origins.forEach((origin) => push(...)))`:
      the cross product of years and origins, year-major, each cell valued by
      `value`. */
  function Matrix(years: seq<Num>, origins: seq<string>, value: (Num, string) -> real): (cells: seq<Cell>)
    ensures |cells| == |years| * |origins|
    decreases |years|
  {
    if |years| == 0 then []
    else Row(years[0], origins, value) + Matrix(years[1..], origins, value)
  }

  /** The cell for year index `j` and origin index `i` sits at `j * |origins| + i`. */
  lemma {:induction false} MatrixIndex(years: seq<Num>, origins: seq<string>, value: (Num, string) -> real, j: nat, i: nat)
    requires j < |years| && i < |origins|
    ensures j * |origins| + i < |Matrix(years, origins, value)|
    ensures Matrix(years, origins, value)[j * |origins| + i] ==
      Cell(years[j], origins[i], value(years[j], origins[i]))
    decreases j
  {
    var n := |origins|;
    var row := Row(years[0], origins, value);
    var rest := Matrix(years[1..], origins, value);
    assert Matrix(years, origins, value) == row + rest;
    if j > 0 {
      MatrixIndex(years[1..], origins, value, j - 1, i);
      assert j * n + i == n + ((j - 1) * n + i);
    }
  }

  /** With the three fixed origins: cell `k` is year `k / 3`, origin `k % 3`. */
  lemma MatrixOfFixedOrigins(years: seq<Num>, value: (Num, string) -> real)
    ensures |Matrix(years, FixedOrigins, value)| == 3 * |years|
    ensures forall k :: 0 <= k < 3 * |years| ==>
      Matrix(years, FixedOrigins, value)[k] ==
        Cell(years[k / 3], FixedOrigins[k % 3], value(years[k / 3], FixedOrigins[k % 3]))
  {
    forall k | 0 <= k < 3 * |years|
      ensures Matrix(years, FixedOrigins, value)[k] ==
        Cell(years[k / 3], FixedOrigins[k % 3], value(years[k / 3], FixedOrigins[k % 3]))
    {
      MatrixIndex(years, FixedOrigins, value, k / 3, k % 3);
    }
  }

  /** With a single origin: cell `j` is year `j` of that origin. */
  lemma MatrixOfOneOrigin(years: seq<Num>, o: string, value: (Num, string) -> real)
    ensures |Matrix(years, [o], value)| == |years|
    ensures forall j :: 0 <= j < |years| ==>
      Matrix(years, [o], value)[j] == Cell(years[j], o, value(years[j], o))
  {
    forall j | 0 <= j < |years|
      ensures Matrix(years, [o], value)[j] == Cell(years[j], o, value(years[j], o))
    {
      MatrixIndex(years, [o], value, j, 0);
    }
  }

  /** An SVG rectangle. */
  datatype Rect = Rect(x: int, y: int, width: int, height: int)

  predicate Overlap(a: Rect, b: Rect)
  {
    && a.x < b.x + b.width && b.x < a.x + a.width
    && a.y < b.y + b.height && b.y < a.y + a.height
  }

  predicate SameText(a: string, b: string)
  {
    a == b
  }

  /** The rectangle a heatmap cell is drawn as: column by the origin's index
      among the fixed origins, row by the year's `indexOf` in `years` (which
      compares with `===`, so a NaN year finds no row and gets index -1). */
  function CellRect(c: Cell, years: seq<Num>): Rect
  {
    Rect(IndexOf(FixedOrigins, c.origin, SameText) * 100 + 100,
         IndexOf(years, c.year, StrictEq) * 25 + 20,
         90, 20)
  }

  lemma OriginColumn(i: nat)
    requires i < 3
    ensures IndexOf(FixedOrigins, FixedOrigins[i], SameText) == i
  {
    FixedOriginsAreDistinct();
  }

  /** In a strictly ascending year list a defined year is found at its own
      index, and a NaN year (only ever last) is not found. */
  lemma YearRow(years: seq<Num>, j: nat)
    requires StrictlyAscending(years)
    requires j < |years|
    ensures years[j].Some? ==> IndexOf(years, years[j], StrictEq) == j
    ensures years[j].None? ==> IndexOf(years, years[j], StrictEq) == -1 && j == |years| - 1
  {
    if j < |years| - 1 {
      AscendingPair(years, j, j + 1);
    }
  }

  lemma AscendingPair(years: seq<Num>, i: nat, j: nat)
    requires StrictlyAscending(years)
    requires i < j < |years|
    ensures years[i].Some? && (years[j].None? || years[i].value < years[j].value)
  {
  }

  /** Where the cell with matrix index `k` is drawn, for a defined year. */
  lemma CellPosition(years: seq<Num>, value: (Num, string) -> real, k: nat)
    requires StrictlyAscending(years)
    requires k < 3 * |years|
    requires years[k / 3].Some?
    ensures CellRect(Matrix(years, FixedOrigins, value)[k], years) ==
      Rect(100 * (k % 3) + 100, 25 * (k / 3) + 20, 90, 20)
  {
    MatrixOfFixedOrigins(years, value);
    OriginColumn(k % 3);
    YearRow(years, k / 3);
  }

  /** No two cells of the grid overlap: columns are 100 apart and 90 wide,
      rows 25 apart and 20 high. */
  lemma CellsDoNotOverlap(years: seq<Num>, value: (Num, string) -> real, k: nat, k': nat)
    requires StrictlyAscending(years)
    requires k < 3 * |years| && k' < 3 * |years| && k != k'
    ensures !Overlap(CellRect(Matrix(years, FixedOrigins, value)[k], years),
                     CellRect(Matrix(years, FixedOrigins, value)[k'], years))
  {
    MatrixOfFixedOrigins(years, value);
    OriginColumn(k % 3);
    OriginColumn(k' % 3);
    YearRow(years, k / 3);
    YearRow(years, k' / 3);
  }
}

=== FILE: heatmap.dfy ===
/** The standalone heatmap view: MPG by model year and origin. The years come
    from all records; the rollup behind the cells runs over the records of the
    selected origin; the matrix always holds every year-origin pair, and only
    the selected origin's cells are drawn. */
module Heatmap {
  import opened Numeric
  import opened Seqs
  import opened Cars
  import opened OriginFilter
  import opened YearGrid

  /** The value of the cell (`year`, `origin`) when the rollup runs over the
      records of the selected origin. */
  function FilteredValue(data: seq<Car>, selected: string): (Num, string) -> real
  {
    (year: Num, origin: string) => CellMpg(Select(data, Origin, selected), year, origin)
  }

  /** `mpgMatrix`: `years.length * 3` cells, year-major, origins in the fixed
      order, whatever the filter; a cell of an unselected origin is 0. */
  function MpgMatrix(data: seq<Car>, selected: string): (cells: seq<Cell>)
    requires TwoDigitYears(data)
    ensures |cells| == 3 * |Years(data)|
    ensures forall k :: 0 <= k < |cells| ==>
      && cells[k].year == Years(data)[k / 3]
      && cells[k].origin == FixedOrigins[k % 3]
      && cells[k].mpg ==
           if selected == AllOrigins || cells[k].origin == selected
           then CellMpg(data, cells[k].year, cells[k].origin)
           else 0.0
  {
    var years := Years(data);
    var value := FilteredValue(data, selected);
    MatrixOfFixedOrigins(years, value);
    forall year, origin
      ensures value(year, origin) ==
        if selected == AllOrigins || origin == selected then CellMpg(data, year, origin) else 0.0
    {
      FilteredCellMpg(data, selected, year, origin);
    }
    Matrix(years, FixedOrigins, value)
  }

  /** A cell whose year and origin have no record with a defined MPG shows 0. */
  lemma EmptyCellIsZero(data: seq<Car>, selected: string, k: nat)
    requires TwoDigitYears(data)
    requires k < |MpgMatrix(data, selected)|
    requires forall c :: (c in data && c.modelYear == MpgMatrix(data, selected)[k].year &&
      c.origin == MpgMatrix(data, selected)[k].origin) ==> c.mpg.None?
    ensures MpgMatrix(data, selected)[k].mpg == 0.0
  {
  }

  /** The cells the heatmap draws: all of them under "All"; under one of the
      three origins exactly that origin's cells, one per year in year order;
      none for any other selection. */
  function Rendered(data: seq<Car>, selected: string): (shown: seq<Cell>)
    requires TwoDigitYears(data)
    ensures selected == AllOrigins ==> shown == MpgMatrix(data, selected)
    ensures selected in FixedOrigins ==>
      && |shown| == |Years(data)|
      && forall j :: 0 <= j < |shown| ==>
           shown[j] == Cell(Years(data)[j], selected, CellMpg(data, Years(data)[j], selected))
    ensures selected != AllOrigins && selected !in FixedOrigins ==> shown == []
  {
    DrawnCells(data, selected);
    Filter(MpgMatrix(data, selected), Drawn(selected))
  }

  lemma DrawnCells(data: seq<Car>, selected: string)
    requires TwoDigitYears(data)
    ensures selected == AllOrigins ==>
      Filter(MpgMatrix(data, selected), Drawn(selected)) == MpgMatrix(data, selected)
    ensures selected in FixedOrigins ==>
      && |Filter(MpgMatrix(data, selected), Drawn(selected))| == |Years(data)|
      && forall j :: 0 <= j < |Years(data)| ==>
           Filter(MpgMatrix(data, selected), Drawn(selected))[j] ==
             Cell(Years(data)[j], selected, CellMpg(data, Years(data)[j], selected))
    ensures selected != AllOrigins && selected !in FixedOrigins ==>
      Filter(MpgMatrix(data, selected), Drawn(selected)) == []
  {
    if selected == AllOrigins {
      FilterAll(MpgMatrix(data, selected), Drawn(selected));
    } else if selected in FixedOrigins {
      DrawnUnderOneOrigin(data, selected);
    } else {
      FilterNone(MpgMatrix(data, selected), Drawn(selected));
    }
  }

  lemma DrawnUnderOneOrigin(data: seq<Car>, selected: string)
    requires TwoDigitYears(data)
    requires selected in FixedOrigins
    ensures |Filter(MpgMatrix(data, selected), Drawn(selected))| == |Years(data)|
    ensures forall j :: 0 <= j < |Years(data)| ==>
      Filter(MpgMatrix(data, selected), Drawn(selected))[j] ==
        Cell(Years(data)[j], selected, CellMpg(data, Years(data)[j], selected))
  {
    var years := Years(data);
    var value := FilteredValue(data, selected);
    FilterToOneOrigin(years, value, selected);
    MatrixOfOneOrigin(years, selected, value);
    forall j | 0 <= j < |years|
      ensures value(years[j], selected) == CellMpg(data, years[j], selected)
    {
      FilteredCellMpg(data, selected, years[j], selected);
    }
  }


  /** Keeping one origin's cells of the full matrix gives the one-origin matrix. */
  lemma {:induction false} FilterToOneOrigin(years: seq<Num>, value: (Num, string) -> real, o: string)
    requires o in FixedOrigins
    ensures Filter(Matrix(years, FixedOrigins, value), Drawn(o)) == Matrix(years, [o], value)
    decreases |years|
  {
    if |years| > 0 {
      var row := Row(years[0], FixedOrigins, value);
      var rest := Matrix(years[1..], FixedOrigins, value);
      FilterAppend(row, rest, Drawn(o));
      FilterToOneOrigin(years[1..], value, o);
      FilterRow(years[0], value, o);
    }
  }

  /** Of a row of the three origins, exactly the cell of origin `o` is drawn. */
  lemma FilterRow(year: Num, value: (Num, string) -> real, o: string)
    requires o in FixedOrigins
    ensures Filter(Row(year, FixedOrigins, value), Drawn(o)) == Row(year, [o], value)
  {
    FixedOriginsAreDistinct();
    var row := Row(year, FixedOrigins, value);
    var p := Drawn(o);
    assert forall c: Cell :: p(c) == (c.origin == o);
    assert row[1..][1..] == [row[2]];
    assert Filter([row[2]], p) == (if p(row[2]) then [row[2]] else []);
    assert Filter(row[1..], p) == (if p(row[1]) then [row[1]] else []) + Filter([row[2]], p);
    assert Filter(row, p) == (if p(row[0]) then [row[0]] else []) + Filter(row[1..], p);
  }
}

=== FILE: histogram.dfy ===
/** The standalone histogram of cylinder counts: the origin list of its
    selector, and the cylinder values it bins, taken from the selected
    origin's records once data has arrived. */
module Histogram {
  import opened Numeric
  import opened Seqs
  import opened Cars
  import opened OriginFilter

  /** `[...new Set(data.map((d) => d.Origin))]`: each origin of the data once,
      nothing else, in order of first appearance. */
  function Origins(data: seq<Car>): (origins: seq<string>)
    ensures NoDuplicates(origins)
    ensures forall c :: c in data ==> c.origin in origins
    ensures forall o :: o in origins ==> exists c :: c in data && c.origin == o
    ensures IsSubsequence(origins, Map(data, Origin))
    ensures InFirstAppearanceOrder(origins, Map(data, Origin))
  {
    var names := Map(data, Origin);
    var origins := Distinct(names);
    DistinctSubsequence(names);
    DistinctFirstAppearance(names);
    forall c | c in data ensures c.origin in origins {
      var k :| 0 <= k < |data| && data[k] == c;
      assert names[k] == c.origin;
    }
    forall o | o in origins ensures exists c :: c in data && c.origin == o {
      var k :| 0 <= k < |data| && names[k] == o;
      assert data[k] in data;
    }
    origins
  }

  /** The values the histogram bins: nothing while there is no data;
      otherwise the cylinders of the selected records, one per record, in
      record order. */
  function CylinderValues(data: seq<Car>, selected: string): (values: Option<seq<Num>>)
    ensures |data| == 0 <==> values.None?
    ensures values.Some? ==>
      && |values.value| == |Select(data, Origin, selected)|
      && forall i :: 0 <= i < |values.value| ==>
           values.value[i] == Select(data, Origin, selected)[i].cylinders
  {
    if |data| == 0 then None
    else Some(Map(Select(data, Origin, selected), (c: Car) => c.cylinders))
  }

  /** Under "All" the values are the cylinder column of the data; under an
      origin there is one value per record of that origin, each the cylinders
      of such a record. */
  lemma CylinderValuesOfSelection(data: seq<Car>, selected: string)
    requires |data| > 0
    ensures selected == AllOrigins ==>
      forall i :: 0 <= i < |data| ==> CylinderValues(data, selected).value[i] == data[i].cylinders
    ensures selected != AllOrigins ==>
      |CylinderValues(data, selected).value| == OriginCount(data, Origin, selected)
    ensures forall i :: 0 <= i < |CylinderValues(data, selected).value| ==>
      exists c :: c in data && (selected == AllOrigins || c.origin == selected) &&
        c.cylinders == CylinderValues(data, selected).value[i]
  {
    var filtered := Select(data, Origin, selected);
    var values := CylinderValues(data, selected).value;
    forall i | 0 <= i < |values|
      ensures exists c :: c in data && (selected == AllOrigins || c.origin == selected) && c.cylinders == values[i]
    {
      assert filtered[i] in multiset(filtered);
      assert filtered[i] in multiset(data);
    }
  }
}

=== FILE: numeric.dfy ===
/** JavaScript numbers as the dashboard uses them: a real value, or NaN /
    `undefined` (both modelled as `None`), with the d3 reducers `d3.mean` and
    `d3.max`, which skip NaN and `undefined` entries. */
module Numeric {

  datatype Option<+T> = None | Some(value: T) {
    /** The `??` operator: the value, or `default` when it is missing. */
    function GetOr(default: T): T {
      match this
      case Some(v) => v
      case None => default
    }
  }

  /** A coerced number: `None` stands for NaN (a failed `+text` coercion) or `undefined`. */
  type Num = Option<real>

  /** JavaScript `===` on numbers: NaN is not equal to anything, itself included.
      (Dafny's `==` on `Num` is SameValueZero, the equality of `Set`, `Map` and
      the d3 grouping functions, under which NaN equals NaN.) */
  predicate StrictEq(a: Num, b: Num)
  {
    a.Some? && b.Some? && a.value == b.value
  }

  /** The defined (non-NaN) entries, in order. */
  function Values(xs: seq<Num>): (r: seq<real>)
    ensures |r| <= |xs|
    ensures |r| == 0 <==> forall i :: 0 <= i < |xs| ==> xs[i].None?
  {
    if |xs| == 0 then []
    else
      (if xs[0].Some? then [xs[0].value] else []) + Values(xs[1..])
  }

  /** The defined entries of a concatenation are those of each part. */
  lemma {:induction false} ValuesAppend(a: seq<Num>, b: seq<Num>)
    ensures Values(a + b) == Values(a) + Values(b)
    decreases |a|
  {
    if |a| == 0 {
      assert a + b == b;
    } else {
      assert (a + b)[0] == a[0];
      assert (a + b)[1..] == a[1..] + b;
      ValuesAppend(a[1..], b);
    }
  }

  function Sum(vs: seq<real>): real
  {
    if |vs| == 0 then 0.0 else vs[0] + Sum(vs[1..])
  }

  /** `d3.mean`: the arithmetic mean of the defined entries, or `undefined`
      when there are none. */
  function Mean(xs: seq<Num>): (r: Num)
    ensures r.None? <==> forall i :: 0 <= i < |xs| ==> xs[i].None?
    ensures r.Some? ==> r.value * (|Values(xs)| as real) == Sum(Values(xs))
    ensures r.Some? ==> |Values(xs)| > 0 && r.value == Average(Values(xs))
  {
    var vs := Values(xs);
    if |vs| == 0 then None
    else Some(Average(vs))
  }

  /** The average of a non-empty list of reals, stated by the product it inverts. */
  function Average(vs: seq<real>): (a: real)
    requires |vs| > 0
    ensures a * (|vs| as real) == Sum(vs)
  {
    Sum(vs) / (|vs| as real)
  }

  /** `d3.max`: the largest defined entry, or `undefined` when there is none. */
  function Max(xs: seq<Num>): (r: Num)
    ensures r.None? <==> forall i :: 0 <= i < |xs| ==> xs[i].None?
    ensures r.Some? ==> r in xs
    ensures r.Some? ==> forall i :: 0 <= i < |xs| && xs[i].Some? ==> xs[i].value <= r.value
  {
    if |xs| == 0 then None
    else
      var m := Max(xs[1..]);
      assert forall i :: 1 <= i < |xs| ==> xs[i] == xs[1..][i-1];
      if xs[0].None? then m
      else if m.None? || m.value <= xs[0].value then xs[0]
      else m
  }

  lemma {:induction false} ValuesWithinBounds(xs: seq<Num>, lo: real, hi: real)
    requires forall i :: 0 <= i < |xs| && xs[i].Some? ==> lo <= xs[i].value <= hi
    ensures forall i :: 0 <= i < |Values(xs)| ==> lo <= Values(xs)[i] <= hi
  {
    if |xs| > 0 {
      ValuesWithinBounds(xs[1..], lo, hi);
    }
  }

  lemma {:induction false} SumBounds(vs: seq<real>, lo: real, hi: real)
    requires forall i :: 0 <= i < |vs| ==> lo <= vs[i] <= hi
    ensures (|vs| as real) * lo <= Sum(vs) <= (|vs| as real) * hi
  {
    if |vs| > 0 {
      SumBounds(vs[1..], lo, hi);
      assert (|vs| as real) * lo == lo + (|vs[1..]| as real) * lo;
      assert (|vs| as real) * hi == hi + (|vs[1..]| as real) * hi;
    }
  }

  /** A mean lies between any bounds of the values it averages. */
  lemma MeanWithinBounds(xs: seq<Num>, lo: real, hi: real)
    requires forall i :: 0 <= i < |xs| && xs[i].Some? ==> lo <= xs[i].value <= hi
    ensures Mean(xs).Some? ==> lo <= Mean(xs).value <= hi
  {
    var vs := Values(xs);
    if |vs| > 0 {
      ValuesWithinBounds(xs, lo, hi);
      SumBounds(vs, lo, hi);
      ScaledBounds(Mean(xs).value, |vs| as real, Sum(vs), lo, hi);
    }
  }

  /** An average lies between any bounds of the values it averages. */
  lemma AverageWithinBounds(vs: seq<real>, lo: real, hi: real)
    requires |vs| > 0
    requires forall i :: 0 <= i < |vs| ==> lo <= vs[i] <= hi
    ensures lo <= Average(vs) <= hi
  {
    SumBounds(vs, lo, hi);
    ScaledBounds(Average(vs), |vs| as real, Sum(vs), lo, hi);
  }

  lemma ScaledBounds(m: real, n: real, total: real, lo: real, hi: real)
    requires n > 0.0
    requires m * n == total
    requires n * lo <= total <= n * hi
    ensures lo <= m <= hi
  {
  }
}

=== FILE: scale.dfy ===
/** d3's continuous linear scale over reals: a two-point domain mapped onto
    a two-point range, evaluated forward and inverted (clamping off). */
module LinearScale {

  datatype Scale = Scale(d0: real, d1: real, r0: real, r1: real)

  /** A brush selection `[[x0, y0], [x1, y1]]`, in pixels. */
  datatype Selection = Selection(x0: real, y0: real, x1: real, y1: real)

  /** d3's `normalize(a, b)(x)`: the position of `x` along `[a, b]`, and 0.5
      when the interval is degenerate. */
  function Normalize(a: real, b: real, x: real): (t: real)
    ensures a != b ==> t * (b - a) == x - a
    ensures a == b ==> t == 0.5
  {
    if b - a != 0.0 then (x - a) / (b - a) else 0.5
  }

  /** d3's `interpolateNumber(a, b)(t)`. */
  function Interpolate(a: real, b: real, t: real): real
  {
    a * (1.0 - t) + b * t
  }

  /** `scale(x)`. */
  function Apply(s: Scale, x: real): (y: real)
    ensures s.d0 != s.d1 ==> (y - s.r0) * (s.d1 - s.d0) == (x - s.d0) * (s.r1 - s.r0)
    ensures s.d0 == s.d1 ==> y == (s.r0 + s.r1) / 2.0
  {
    var t := Normalize(s.d0, s.d1, x);
    Interpolate(s.r0, s.r1, t)
  }

  /** `scale.invert(y)`. */
  function Invert(s: Scale, y: real): (x: real)
    ensures s.r0 != s.r1 ==> (x - s.d0) * (s.r1 - s.r0) == (y - s.r0) * (s.d1 - s.d0)
    ensures s.r0 == s.r1 ==> x == (s.d0 + s.d1) / 2.0
  {
    var t := Normalize(s.r0, s.r1, y);
    Interpolate(s.d0, s.d1, t)
  }

  /** The domain ends map to the range ends. */
  lemma ApplyEndpoints(s: Scale)
    requires s.d0 != s.d1
    ensures Apply(s, s.d0) == s.r0
    ensures Apply(s, s.d1) == s.r1
  {
    var a := Apply(s, s.d0);
    assert (a - s.r0) * (s.d1 - s.d0) == 0.0;
    var b := Apply(s, s.d1);
    assert (b - s.r0) * (s.d1 - s.d0) == (s.d1 - s.d0) * (s.r1 - s.r0);
  }

  /** The range ends invert to the domain ends. */
  lemma InvertEndpoints(s: Scale)
    requires s.r0 != s.r1
    ensures Invert(s, s.r0) == s.d0
    ensures Invert(s, s.r1) == s.d1
  {
    var a := Invert(s, s.r0);
    assert (a - s.d0) * (s.r1 - s.r0) == 0.0;
    var b := Invert(s, s.r1);
    assert (b - s.d0) * (s.r1 - s.r0) == (s.r1 - s.r0) * (s.d1 - s.d0);
  }

  /** Inverting an applied value gives the value back. */
  lemma InvertApply(s: Scale, x: real)
    requires s.d0 != s.d1 && s.r0 != s.r1
    ensures Invert(s, Apply(s, x)) == x
  {
    var fx := Apply(s, x);
    var back := Invert(s, fx);
    assert (back - s.d0) * (s.r1 - s.r0) == (x - s.d0) * (s.r1 - s.r0);
    CancelProduct(back - s.d0, x - s.d0, s.r1 - s.r0);
  }

  /** Applying an inverted value gives the value back. */
  lemma ApplyInvert(s: Scale, y: real)
    requires s.d0 != s.d1 && s.r0 != s.r1
    ensures Apply(s, Invert(s, y)) == y
  {
    var iy := Invert(s, y);
    var fwd := Apply(s, iy);
    assert (fwd - s.r0) * (s.d1 - s.d0) == (y - s.r0) * (s.d1 - s.d0);
    CancelProduct(fwd - s.r0, y - s.r0, s.d1 - s.d0);
  }

  /** The round trip for the two edges of a brush, when the scale is invertible. */
  lemma EdgesRoundTrip(s: Scale, a: real, b: real)
    ensures s.d0 != s.d1 && s.r0 != s.r1 ==> Apply(s, Invert(s, a)) == a && Apply(s, Invert(s, b)) == b
  {
    if s.d0 != s.d1 && s.r0 != s.r1 {
      ApplyInvert(s, a);
      ApplyInvert(s, b);
    }
  }

  lemma CancelProduct(a: real, b: real, k: real)
    requires k != 0.0
    requires a * k == b * k
    ensures a == b
  {
  }

  /** Over an increasing domain, inversion through an increasing range is
      increasing and through a decreasing range is decreasing. */
  lemma InvertMonotone(s: Scale, y: real, y': real)
    requires s.d0 < s.d1
    requires s.r0 != s.r1
    requires y <= y'
    ensures s.r0 < s.r1 ==> Invert(s, y) <= Invert(s, y')
    ensures s.r1 < s.r0 ==> Invert(s, y') <= Invert(s, y)
  {
    var a := Invert(s, y);
    var b := Invert(s, y');
    var dr := s.r1 - s.r0;
    var dd := s.d1 - s.d0;
    assert (b - a) * dr == (y' - y) * dd;
    SignOfProduct(b - a, dr, (y' - y) * dd);
  }

  lemma SignOfProduct(u: real, k: real, p: real)
    requires k != 0.0
    requires u * k == p
    requires p >= 0.0
    ensures k > 0.0 ==> u >= 0.0
    ensures k < 0.0 ==> u <= 0.0
  {
  }

  /** Over an increasing domain, an increasing range makes the scale increasing. */
  lemma ApplyMonotone(s: Scale, x: real, x': real)
    requires s.d0 < s.d1 && s.r0 < s.r1
    requires x <= x'
    ensures Apply(s, x) <= Apply(s, x')
  {
    var a := Apply(s, x);
    var b := Apply(s, x');
    assert (b - a) * (s.d1 - s.d0) == (x' - x) * (s.r1 - s.r0);
    SignOfProduct(b - a, s.d1 - s.d0, (x' - x) * (s.r1 - s.r0));
  }
}

=== FILE: seqs.dfy ===
/** Sequence helpers shared by every view: the JavaScript array idioms the
    dashboard uses (`filter`, `new Set(...)`, `sort`, `indexOf`),
    each defined once with the facts the views rely on. */
module Seqs {

  /** `a` can be obtained from `b` by deleting elements: order is preserved. */
  ghost predicate IsSubsequence<T>(a: seq<T>, b: seq<T>)
    decreases |b|
  {
    |a| == 0 ||
    (|b| > 0 && ((a[0] == b[0] && IsSubsequence(a[1..], b[1..])) || IsSubsequence(a, b[1..])))
  }

  ghost predicate NoDuplicates<T>(s: seq<T>)
  {
    forall i, j :: 0 <= i < j < |s| ==> s[i] != s[j]
  }

  /** `Array.prototype.filter`: the elements satisfying `p`, in their original order. */
  function Filter<T(!new)>(s: seq<T>, p: T -> bool): (r: seq<T>)
    ensures |r| <= |s|
    ensures forall i :: 0 <= i < |r| ==> p(r[i])
    ensures forall x :: x in r <==> x in s && p(x)
    decreases |s|
  {
    if |s| == 0 then []
    else
      assert s == [s[0]] + s[1..];
      (if p(s[0]) then [s[0]] else []) + Filter(s[1..], p)
  }

  /** Filtering keeps every matching element with its multiplicity and drops the rest. */
  lemma {:induction false} FilterCounts<T(!new)>(s: seq<T>, p: T -> bool)
    ensures forall x :: multiset(Filter(s, p))[x] == if p(x) then multiset(s)[x] else 0
    decreases |s|
  {
    if |s| > 0 {
      assert s == [s[0]] + s[1..];
      FilterCounts(s[1..], p);
    }
  }

  /** Filtering preserves the relative order of the kept elements. */
  lemma {:induction false} FilterSubsequence<T(!new)>(s: seq<T>, p: T -> bool)
    ensures IsSubsequence(Filter(s, p), s)
    decreases |s|
  {
    if |s| > 0 {
      FilterSubsequence(s[1..], p);
      var r := Filter(s, p);
      if p(s[0]) {
        assert r[0] == s[0] && r[1..] == Filter(s[1..], p);
      } else {
        assert r == Filter(s[1..], p);
      }
    }
  }

  /** Filtering distributes over concatenation. */
  lemma {:induction false} FilterAppend<T(!new)>(a: seq<T>, b: seq<T>, p: T -> bool)
    ensures Filter(a + b, p) == Filter(a, p) + Filter(b, p)
    decreases |a|
  {
    if |a| == 0 {
      assert a + b == b;
    } else {
      assert (a + b)[1..] == a[1..] + b;
      FilterAppend(a[1..], b, p);
    }
  }

  /** Filtering twice is filtering once by the conjunction. */
  lemma {:induction false} FilterOfFilter<T(!new)>(s: seq<T>, p: T -> bool, q: T -> bool, both: T -> bool)
    requires forall x :: both(x) == (p(x) && q(x))
    ensures Filter(Filter(s, p), q) == Filter(s, both)
    decreases |s|
  {
    if |s| > 0 {
      FilterOfFilter(s[1..], p, q, both);
      var head := if p(s[0]) then [s[0]] else [];
      FilterAppend(head, Filter(s[1..], p), q);
    }
  }

  /** A filter that rejects every element yields nothing. */
  lemma {:induction false} FilterNone<T(!new)>(s: seq<T>, p: T -> bool)
    requires forall x :: x in s ==> !p(x)
    ensures Filter(s, p) == []
    decreases |s|
  {
    if |s| > 0 {
      assert s[0] in s;
      FilterNone(s[1..], p);
    }
  }

  /** A filter that accepts every element keeps the sequence as it is. */
  lemma {:induction false} FilterAll<T(!new)>(s: seq<T>, p: T -> bool)
    requires forall x :: x in s ==> p(x)
    ensures Filter(s, p) == s
    decreases |s|
  {
    if |s| > 0 {
      assert s[0] in s;
      FilterAll(s[1..], p);
      assert s == [s[0]] + s[1..];
    }
  }

  /** Number of elements satisfying `p`. */
  function CountWhere<T(!new)>(s: seq<T>, p: T -> bool): nat
  {
    |Filter(s, p)|
  }

  /** Element-wise image, `Array.prototype.map`. */
  function Map<T, U>(s: seq<T>, f: T -> U): (r: seq<U>)
    ensures |r| == |s|
    ensures forall i :: 0 <= i < |s| ==> r[i] == f(s[i])
  {
    seq(|s|, i requires 0 <= i < |s| => f(s[i]))
  }

  /** Mapping distributes over concatenation. */
  lemma MapAppend<T, U>(a: seq<T>, b: seq<T>, f: T -> U)
    ensures Map(a + b, f) == Map(a, f) + Map(b, f)
  {
  }

  /** `Array.from(new Set(s))`: each value once, in order of first appearance
      (a JavaScript Set keeps insertion order; d3.group and d3.groups order
      their keys the same way). */
  function Distinct<T(==,!new)>(s: seq<T>): (r: seq<T>)
    ensures forall x :: x in r <==> x in s
    ensures NoDuplicates(r)
    ensures |r| <= |s|
    decreases |s|
  {
    if |s| == 0 then []
    else
      var d := Distinct(s[1..]);
      var rest := Filter(d, x => x != s[0]);
      assert s == [s[0]] + s[1..];
      FilterKeepsNoDuplicates(d, x => x != s[0]);
      PrependKeepsNoDuplicates(s[0], rest);
      [s[0]] + rest
  }

  /** The distinct values keep the order in which they first appear. */
  lemma {:induction false} DistinctSubsequence<T(!new)>(s: seq<T>)
    ensures IsSubsequence(Distinct(s), s)
    decreases |s|
  {
    if |s| > 0 {
      var d := Distinct(s[1..]);
      var rest := Filter(d, x => x != s[0]);
      DistinctSubsequence(s[1..]);
      FilterSubsequence(d, x => x != s[0]);
      SubsequenceTransitive(rest, d, s[1..]);
      assert Distinct(s) == [s[0]] + rest;
    }
  }

  /** `x` occurs in `s` before `y` first does. */
  ghost predicate FirstBefore<T>(s: seq<T>, x: T, y: T)
  {
    exists k :: 0 <= k < |s| && s[k] == x && y !in s[..k]
  }

  /** The elements of `r` are ordered by their first appearance in `s`. */
  ghost predicate InFirstAppearanceOrder<T>(r: seq<T>, s: seq<T>)
  {
    forall i, j :: 0 <= i < j < |r| ==> FirstBefore(s, r[i], r[j])
  }

  /** The distinct values are listed in order of first appearance. */
  lemma {:induction false} DistinctFirstAppearance<T(!new)>(s: seq<T>)
    ensures InFirstAppearanceOrder(Distinct(s), s)
    decreases |s|
  {
    if |s| > 0 {
      var d := Distinct(s[1..]);
      var rest := Filter(d, x => x != s[0]);
      DistinctFirstAppearance(s[1..]);
      FilterKeepsFirstAppearanceOrder(d, x => x != s[0], s[1..]);
      assert Distinct(s) == [s[0]] + rest;
      LiftFirstAppearanceOrder(s, rest);
      forall y | y in rest ensures FirstBefore(s, s[0], y) {
        assert s[..0] == [];
      }
      PrependFirstAppearanceOrder(s[0], rest, s);
    }
  }

  /** An order of first appearance in `s[1..]` holds in `s` for values other than `s[0]`. */
  lemma LiftFirstAppearanceOrder<T>(s: seq<T>, r: seq<T>)
    requires |s| > 0
    requires InFirstAppearanceOrder(r, s[1..])
    requires forall i :: 0 <= i < |r| ==> r[i] != s[0]
    ensures InFirstAppearanceOrder(r, s)
  {
    forall i, j | 0 <= i < j < |r| ensures FirstBefore(s, r[i], r[j]) {
      ShiftFirstBefore(s, r[i], r[j]);
    }
  }

  /** Filtering keeps an order of first appearance. */
  lemma {:induction false} FilterKeepsFirstAppearanceOrder<T(!new)>(d: seq<T>, p: T -> bool, t: seq<T>)
    requires InFirstAppearanceOrder(d, t)
    ensures InFirstAppearanceOrder(Filter(d, p), t)
    decreases |d|
  {
    if |d| > 0 {
      TailFirstAppearanceOrder(d, t);
      FilterKeepsFirstAppearanceOrder(d[1..], p, t);
      var rest := Filter(d[1..], p);
      assert d == [d[0]] + d[1..];
      if p(d[0]) {
        forall y | y in rest ensures FirstBefore(t, d[0], y) {
          var k :| 0 <= k < |d[1..]| && d[1..][k] == y;
          assert d[k + 1] == y;
        }
        PrependFirstAppearanceOrder(d[0], rest, t);
        assert Filter(d, p) == [d[0]] + rest;
      } else {
        assert Filter(d, p) == rest;
      }
    }
  }

  lemma TailFirstAppearanceOrder<T>(d: seq<T>, t: seq<T>)
    requires |d| > 0
    requires InFirstAppearanceOrder(d, t)
    ensures InFirstAppearanceOrder(d[1..], t)
  {
    forall i, j | 0 <= i < j < |d[1..]| ensures FirstBefore(t, d[1..][i], d[1..][j]) {
      assert d[1..][i] == d[i + 1] && d[1..][j] == d[j + 1];
    }
  }

  lemma PrependFirstAppearanceOrder<T>(x: T, rest: seq<T>, t: seq<T>)
    requires InFirstAppearanceOrder(rest, t)
    requires forall y :: y in rest ==> FirstBefore(t, x, y)
    ensures InFirstAppearanceOrder([x] + rest, t)
  {
    var r := [x] + rest;
    forall i, j | 0 <= i < j < |r| ensures FirstBefore(t, r[i], r[j]) {
      assert r[j] == rest[j - 1];
      if i > 0 {
        assert r[i] == rest[i - 1];
      }
    }
  }

  lemma ShiftFirstBefore<T>(s: seq<T>, x: T, y: T)
    requires |s| > 0
    requires FirstBefore(s[1..], x, y)
    requires y != s[0]
    ensures FirstBefore(s, x, y)
  {
    var k :| 0 <= k < |s[1..]| && s[1..][k] == x && y !in s[1..][..k];
    assert s[..k + 1] == [s[0]] + s[1..][..k];
    assert s[k + 1] == x;
  }

  /** Filtering a duplicate-free sequence leaves it duplicate-free. */
  lemma FilterKeepsNoDuplicates<T(!new)>(s: seq<T>, p: T -> bool)
    requires NoDuplicates(s)
    ensures NoDuplicates(Filter(s, p))
  {
    FilterCounts(s, p);
    forall x ensures multiset(Filter(s, p))[x] <= 1 {
      CountsFromNoDuplicates(s, x);
    }
    NoDuplicatesFromCounts(Filter(s, p));
  }

  lemma PrependKeepsNoDuplicates<T>(x: T, s: seq<T>)
    requires NoDuplicates(s)
    requires x !in s
    ensures NoDuplicates([x] + s)
  {
    var t := [x] + s;
    forall i, j | 0 <= i < j < |t| ensures t[i] != t[j] {
      assert t[j] == s[j - 1];
      if i > 0 {
        assert t[i] == s[i - 1];
      }
    }
  }

  lemma {:induction false} SubsequenceTransitive<T>(a: seq<T>, b: seq<T>, c: seq<T>)
    requires IsSubsequence(a, b)
    requires IsSubsequence(b, c)
    ensures IsSubsequence(a, c)
    decreases |c|
  {
    if |a| > 0 {
      if IsSubsequence(b, c[1..]) {
        SubsequenceTransitive(a, b, c[1..]);
      } else if IsSubsequence(a, b[1..]) {
        SubsequenceTransitive(a, b[1..], c[1..]);
      } else {
        SubsequenceTransitive(a[1..], b[1..], c[1..]);
      }
    }
  }

  /** A sequence in which no value occurs twice has no duplicates. */
  lemma NoDuplicatesFromCounts<T>(s: seq<T>)
    requires forall x :: multiset(s)[x] <= 1
    ensures NoDuplicates(s)
  {
    forall i, j | 0 <= i < j < |s| ensures s[i] != s[j] {
      assert s == s[..i] + [s[i]] + s[i+1..j] + [s[j]] + s[j+1..];
      assert multiset(s)[s[i]] >= 1 + multiset([s[j]])[s[i]];
    }
  }

  /** Conversely, a duplicate-free sequence holds every value at most once. */
  lemma {:induction false} CountsFromNoDuplicates<T>(s: seq<T>, x: T)
    requires NoDuplicates(s)
    ensures multiset(s)[x] <= 1
    decreases |s|
  {
    if |s| > 0 {
      assert s == [s[0]] + s[1..];
      assert NoDuplicates(s[1..]) by {
        forall i, j | 0 <= i < j < |s[1..]| ensures s[1..][i] != s[1..][j] {
          assert s[1..][i] == s[i+1] && s[1..][j] == s[j+1];
        }
      }
      CountsFromNoDuplicates(s[1..], x);
      if s[0] == x {
        assert x !in s[1..];
      }
    }
  }

  /** A permutation keeps duplicate-freedom. */
  lemma PermutationNoDuplicates<T>(a: seq<T>, b: seq<T>)
    requires multiset(a) == multiset(b)
    requires NoDuplicates(a)
    ensures NoDuplicates(b)
  {
    forall x ensures multiset(b)[x] <= 1 {
      CountsFromNoDuplicates(a, x);
    }
    NoDuplicatesFromCounts(b);
  }

  /** A total preorder: every pair is comparable and the relation is transitive,
      which is what a comparator passed to `Array.prototype.sort` must be. */
  ghost predicate TotalPreorder<T(!new)>(le: (T, T) -> bool)
  {
    && (forall a, b :: le(a, b) || le(b, a))
    && (forall a, b, c :: le(a, b) && le(b, c) ==> le(a, c))
  }

  ghost predicate SortedBy<T>(s: seq<T>, le: (T, T) -> bool)
  {
    forall i, j :: 0 <= i < j < |s| ==> le(s[i], s[j])
  }

  /** Inserts `x` in front of the first element it does not follow; an element
      inserted later is placed before the elements equal to it. */
  function Insert<T(!new)>(x: T, s: seq<T>, le: (T, T) -> bool): (r: seq<T>)
    ensures multiset(r) == multiset(s) + multiset{x}
    ensures |r| == |s| + 1
    decreases |s|
  {
    if |s| == 0 then [x]
    else if le(x, s[0]) then
      assert s == [s[0]] + s[1..];
      [x] + s
    else
      assert s == [s[0]] + s[1..];
      [s[0]] + Insert(x, s[1..], le)
  }

  /** Inserting into a sorted sequence keeps it sorted. */
  lemma {:induction false} InsertSorted<T(!new)>(x: T, s: seq<T>, le: (T, T) -> bool)
    requires TotalPreorder(le)
    requires SortedBy(s, le)
    ensures SortedBy(Insert(x, s, le), le)
    decreases |s|
  {
    if |s| > 0 && !le(x, s[0]) {
      var rest := Insert(x, s[1..], le);
      var r := Insert(x, s, le);
      assert r == [s[0]] + rest;
      InsertSorted(x, s[1..], le);
      assert le(s[0], x);
      forall k | 0 <= k < |rest| ensures le(s[0], rest[k]) {
        assert rest[k] in multiset(rest);
        if rest[k] != x {
          assert rest[k] in multiset(s[1..]);
          var m :| 0 <= m < |s[1..]| && s[1..][m] == rest[k];
          assert s[1..][m] == s[m+1];
        }
      }
      forall i, j | 0 <= i < j < |r| ensures le(r[i], r[j]) {
        assert r[j] == rest[j-1];
        if i > 0 {
          assert r[i] == rest[i-1];
        }
      }
    }
  }

  /** `Array.prototype.sort` with comparator `le`, as an insertion sort:
      sorted, and a permutation of the input. */
  function Sort<T(!new)>(s: seq<T>, le: (T, T) -> bool): (r: seq<T>)
    requires TotalPreorder(le)
    ensures SortedBy(r, le)
    ensures multiset(r) == multiset(s)
    ensures |r| == |s|
    decreases |s|
  {
    if |s| == 0 then []
    else
      assert s == [s[0]] + s[1..];
      var sorted := Sort(s[1..], le);
      InsertSorted(s[0], sorted, le);
      Insert(s[0], sorted, le)
  }

  /** `Array.prototype.indexOf` under an equality `eq`: the first index whose
      element is `eq` to `x`, or -1. */
  function IndexOf<T>(s: seq<T>, x: T, eq: (T, T) -> bool): (r: int)
    ensures -1 <= r < |s|
    ensures r == -1 <==> forall i :: 0 <= i < |s| ==> !eq(s[i], x)
    ensures r >= 0 ==> eq(s[r], x) && forall i :: 0 <= i < r ==> !eq(s[i], x)
    decreases |s|
  {
    if |s| == 0 then -1
    else if eq(s[0], x) then 0
    else
      var k := IndexOf(s[1..], x, eq);
      if k == -1 then -1 else k + 1
  }
}

=== FILE: yearly.dfy ===
/** The connected scatter plot of the combined dashboard: the records whose
    model year and selected metric are both numbers, grouped by origin and then
    by year, averaged, sorted by year, and the y-axis upper bound drawn from
    the largest average. */
module YearlyMeans {
  import opened Numeric
  import opened Seqs
  import opened Cars

  /** An entry of `dataWithYear`: the record's origin, year and metric value. */
  datatype Point = Point(origin: string, year: real, value: real)

  /** The record's entry, or `None` when its year or metric value is NaN. */
  function ToPoint(c: Car, metric: Metric): Option<Point>
  {
    if c.modelYear.Some? && MetricValue(c, metric).Some? then
      Some(Point(c.origin, c.modelYear.value, MetricValue(c, metric).value))
    else None
  }

  /** `ToPoint` as a function value, for mapping over the records. */
  function EntryOf(metric: Metric): Car -> Option<Point>
  {
    (c: Car) => ToPoint(c, metric)
  }

  predicate IsEntry(o: Option<Point>)
  {
    o.Some?
  }

  function Wrap(p: Point): Option<Point>
  {
    Some(p)
  }

  /** `dataWithYear`: one entry per record whose year and metric value are both
      defined, in record order, duplicates kept. */
  function Points(filtered: seq<Car>, metric: Metric): (ps: seq<Point>)
    ensures |ps| <= |filtered|
    ensures Map(ps, Wrap) == Filter(Map(filtered, EntryOf(metric)), IsEntry)
    ensures forall p :: p in ps ==>
      exists c :: c in filtered && c.origin == p.origin &&
        c.modelYear == Some(p.year) && MetricValue(c, metric) == Some(p.value)
    ensures forall c :: c in filtered && c.modelYear.Some? && MetricValue(c, metric).Some? ==>
      Point(c.origin, c.modelYear.value, MetricValue(c, metric).value) in ps
    decreases |filtered|
  {
    if |filtered| == 0 then []
    else
      assert filtered == [filtered[0]] + filtered[1..];
      var head := match ToPoint(filtered[0], metric)
                  case Some(p) => [p]
                  case None => [];
      var rest := Points(filtered[1..], metric);
      PointsStep(filtered, metric, head, rest);
      head + rest
  }

  /** The order and multiplicity clause for one more record. */
  lemma PointsStep(filtered: seq<Car>, metric: Metric, head: seq<Point>, rest: seq<Point>)
    requires |filtered| > 0
    requires head == match ToPoint(filtered[0], metric) case Some(p) => [p] case None => []
    requires Map(rest, Wrap) == Filter(Map(filtered[1..], EntryOf(metric)), IsEntry)
    ensures Map(head + rest, Wrap) == Filter(Map(filtered, EntryOf(metric)), IsEntry)
  {
    var entries := Map(filtered, EntryOf(metric));
    assert entries[0] == ToPoint(filtered[0], metric);
    assert entries[1..] == Map(filtered[1..], EntryOf(metric));
    assert Filter(entries, IsEntry) ==
      (if IsEntry(entries[0]) then [entries[0]] else []) + Filter(entries[1..], IsEntry);
    assert Map(head, Wrap) == if IsEntry(entries[0]) then [entries[0]] else [];
    MapAppend(head, rest, Wrap);
  }

  function PointOrigin(p: Point): string
  {
    p.origin
  }

  function PointYear(p: Point): real
  {
    p.year
  }

  function PointValue(p: Point): Num
  {
    Some(p.value)
  }

  function OfOrigin(o: string): Point -> bool
  {
    (p: Point) => p.origin == o
  }

  function AtYear(y: real): Point -> bool
  {
    (p: Point) => p.year == y
  }

  function InGroup(o: string, y: real): Point -> bool
  {
    (p: Point) => p.origin == o && p.year == y
  }

  /** The mean metric value of the entries of year `y`, as `d3.mean` computes it. */
  function YearMean(ps: seq<Point>, y: real): Num
  {
    Mean(Map(Filter(ps, AtYear(y)), PointValue))
  }

  /** One point of a series line. */
  datatype YearAvg = YearAvg(year: real, avg: real)

  ghost predicate DistinctYears(es: seq<YearAvg>)
  {
    forall i, j :: 0 <= i < j < |es| ==> es[i].year != es[j].year
  }

  ghost predicate StrictlyAscending(es: seq<YearAvg>)
  {
    forall i, j :: 0 <= i < j < |es| ==> es[i].year < es[j].year
  }

  /** The averages of the given years, the ones whose mean is NaN dropped. */
  function Averages(ps: seq<Point>, years: seq<real>): (es: seq<YearAvg>)
    ensures forall e :: e in es ==> e.year in years && YearMean(ps, e.year) == Some(e.avg)
    ensures forall y :: y in years && YearMean(ps, y).Some? ==> YearAvg(y, YearMean(ps, y).value) in es
    ensures NoDuplicates(years) ==> DistinctYears(es)
    decreases |years|
  {
    if |years| == 0 then []
    else
      var rest := Averages(ps, years[1..]);
      var head := match YearMean(ps, years[0])
        case Some(m) => [YearAvg(years[0], m)]
        case None => [];
      assert years == [years[0]] + years[1..];
      assert NoDuplicates(years) ==> years[0] !in years[1..];
      assert NoDuplicates(years) ==> NoDuplicates(years[1..]) by {
        if NoDuplicates(years) {
          forall i, j | 0 <= i < j < |years[1..]| ensures years[1..][i] != years[1..][j] {
            assert years[1..][i] == years[i+1] && years[1..][j] == years[j+1];
          }
        }
      }
      head + rest
  }

  predicate ByYear(a: YearAvg, b: YearAvg)
  {
    a.year <= b.year
  }

  lemma ByYearIsTotalPreorder()
    ensures TotalPreorder(ByYear)
  {
  }

  /** The yearly line of one origin's entries: `d3.groups` by year, the mean of
      each group, NaN means dropped, sorted by year. */
  function Yearly(ps: seq<Point>): (es: seq<YearAvg>)
  {
    ByYearIsTotalPreorder();
    Sort(Averages(ps, Distinct(Map(ps, PointYear))), ByYear)
  }

  /** One line of the plot. */
  datatype Series = Series(origin: string, values: seq<YearAvg>)

  /** Some entry has origin `o`. */
  ghost predicate Occurs(ps: seq<Point>, o: string)
  {
    exists p :: p in ps && p.origin == o
  }

  /** One series per given origin, in the given order. */
  function SeriesOf(ps: seq<Point>, origins: seq<string>): (groups: seq<Series>)
    ensures |groups| == |origins|
    ensures forall i :: 0 <= i < |groups| ==> groups[i].origin == origins[i]
    ensures forall i :: 0 <= i < |groups| ==>
      groups[i].values == Yearly(Filter(ps, OfOrigin(groups[i].origin)))
  {
    seq(|origins|, i requires 0 <= i < |origins| =>
      Series(origins[i], Yearly(Filter(ps, OfOrigin(origins[i])))))
  }

  /** `nested`: one series per origin, in order of first appearance. */
  function Nested(ps: seq<Point>): (groups: seq<Series>)
    ensures forall i, j :: 0 <= i < j < |groups| ==> groups[i].origin != groups[j].origin
    ensures forall i, j :: 0 <= i < j < |groups| ==>
      FirstBefore(Map(ps, PointOrigin), groups[i].origin, groups[j].origin)
    ensures forall i :: 0 <= i < |groups| ==> Occurs(ps, groups[i].origin)
    ensures forall p :: p in ps ==> exists i :: 0 <= i < |groups| && groups[i].origin == p.origin
    ensures forall i :: 0 <= i < |groups| ==>
      groups[i].values == Yearly(Filter(ps, OfOrigin(groups[i].origin)))
  {
    var origins := Distinct(Map(ps, PointOrigin));
    var groups := SeriesOf(ps, origins);
    OriginsOfPoints(ps, origins);
    SeriesCoverOrigins(ps, origins, groups);
    SeriesDistinct(origins, groups);
    DistinctFirstAppearance(Map(ps, PointOrigin));
    groups
  }

  lemma SeriesDistinct(origins: seq<string>, groups: seq<Series>)
    requires NoDuplicates(origins)
    requires |groups| == |origins|
    requires forall i :: 0 <= i < |groups| ==> groups[i].origin == origins[i]
    ensures forall i, j :: 0 <= i < j < |groups| ==> groups[i].origin != groups[j].origin
  {
  }

  lemma SeriesCoverOrigins(ps: seq<Point>, origins: seq<string>, groups: seq<Series>)
    requires |groups| == |origins|
    requires forall i :: 0 <= i < |groups| ==> groups[i].origin == origins[i]
    requires forall p :: p in ps ==> exists i :: 0 <= i < |origins| && origins[i] == p.origin
    ensures forall p :: p in ps ==> exists i :: 0 <= i < |groups| && groups[i].origin == p.origin
  {
    forall p | p in ps ensures exists i :: 0 <= i < |groups| && groups[i].origin == p.origin {
      var i :| 0 <= i < |origins| && origins[i] == p.origin;
      assert groups[i].origin == p.origin;
    }
  }

  /** The distinct origins are those of the entries, each once. */
  lemma OriginsOfPoints(ps: seq<Point>, origins: seq<string>)
    requires origins == Distinct(Map(ps, PointOrigin))
    ensures NoDuplicates(origins)
    ensures forall i :: 0 <= i < |origins| ==> Occurs(ps, origins[i])
    ensures forall p :: p in ps ==> exists i :: 0 <= i < |origins| && origins[i] == p.origin
  {
    var names := Map(ps, PointOrigin);
    forall i | 0 <= i < |origins| ensures Occurs(ps, origins[i]) {
      assert origins[i] in names;
      var k :| 0 <= k < |ps| && names[k] == origins[i];
      assert ps[k] in ps;
    }
    forall p | p in ps ensures p.origin in origins {
      var k :| 0 <= k < |ps| && ps[k] == p;
      assert names[k] == p.origin;
    }
  }

  /** The yearly line is strictly ascending by year, has an entry for every
      year of the entries and only for those, and each entry's average is the
      mean of that year's values. */
  lemma YearlyProperties(ps: seq<Point>)
    ensures StrictlyAscending(Yearly(ps))
    ensures forall p :: p in ps ==> exists e :: e in Yearly(ps) && e.year == p.year
    ensures forall e :: e in Yearly(ps) ==>
      (exists p :: p in ps && p.year == e.year) && YearMean(ps, e.year) == Some(e.avg)
  {
    ByYearIsTotalPreorder();
    var years := Distinct(Map(ps, PointYear));
    var avgs := Averages(ps, years);
    var sorted := Yearly(ps);
    assert sorted == Sort(avgs, ByYear);
    assert multiset(sorted) == multiset(avgs);
    forall e | e in sorted ensures e in avgs {
      assert e in multiset(sorted);
    }
    SortedDistinctIsAscending(avgs, sorted);
    forall p | p in ps ensures exists e :: e in sorted && e.year == p.year {
      var k :| 0 <= k < |ps| && ps[k] == p;
      assert Map(ps, PointYear)[k] == p.year;
      assert p.year in years;
      HasMean(ps, p);
      var e := YearAvg(p.year, YearMean(ps, p.year).value);
      assert e in avgs;
      assert e in multiset(avgs);
    }
    forall e | e in sorted ensures exists p :: p in ps && p.year == e.year {
      assert e.year in Map(ps, PointYear);
      var k :| 0 <= k < |ps| && Map(ps, PointYear)[k] == e.year;
      assert ps[k] in ps;
    }
  }

  /** A year that occurs among the entries has a defined mean. */
  lemma HasMean(ps: seq<Point>, p: Point)
    requires p in ps
    ensures YearMean(ps, p.year).Some?
  {
    var at := Filter(ps, AtYear(p.year));
    assert p in at;
    var k :| 0 <= k < |at| && at[k] == p;
    assert Map(at, PointValue)[k].Some?;
  }

  /** Sorting entries with distinct years by year makes them strictly ascending. */
  lemma SortedDistinctIsAscending(avgs: seq<YearAvg>, sorted: seq<YearAvg>)
    requires DistinctYears(avgs)
    requires multiset(sorted) == multiset(avgs)
    requires SortedBy(sorted, ByYear)
    ensures StrictlyAscending(sorted)
  {
    assert NoDuplicates(avgs) by {
      forall i, j | 0 <= i < j < |avgs| ensures avgs[i] != avgs[j] {
        assert avgs[i].year != avgs[j].year;
      }
    }
    PermutationNoDuplicates(avgs, sorted);
    forall i, j | 0 <= i < j < |sorted| ensures sorted[i].year < sorted[j].year {
      assert ByYear(sorted[i], sorted[j]);
      assert sorted[i] in multiset(avgs) && sorted[j] in multiset(avgs);
      var a :| 0 <= a < |avgs| && avgs[a] == sorted[i];
      var b :| 0 <= b < |avgs| && avgs[b] == sorted[j];
      assert a != b;
      assert avgs[a].year != avgs[b].year by {
        if a < b {
          assert avgs[a].year != avgs[b].year;
        } else {
          assert avgs[b].year != avgs[a].year;
        }
      }
    }
  }

  /** An entry's average is the mean of the values of the records of that
      origin and that year, taken straight from `dataWithYear`. */
  lemma SeriesAverage(ps: seq<Point>, o: string, e: YearAvg)
    requires e in Yearly(Filter(ps, OfOrigin(o)))
    ensures Mean(Map(Filter(ps, InGroup(o, e.year)), PointValue)) == Some(e.avg)
    ensures |Filter(ps, InGroup(o, e.year))| > 0
  {
    var mine := Filter(ps, OfOrigin(o));
    YearlyProperties(mine);
    assert forall p: Point :: InGroup(o, e.year)(p) == (OfOrigin(o)(p) && AtYear(e.year)(p));
    FilterOfFilter(ps, OfOrigin(o), AtYear(e.year), InGroup(o, e.year));
    var p :| p in mine && p.year == e.year;
    assert p in Filter(ps, InGroup(o, e.year));
  }

  /** Every series is strictly ascending by year, with one entry for each year
      in which its origin has records, each holding that origin-year's mean. */
  lemma NestedProperties(ps: seq<Point>)
    ensures forall i :: 0 <= i < |Nested(ps)| ==> StrictlyAscending(Nested(ps)[i].values)
    ensures forall i, p :: 0 <= i < |Nested(ps)| && p in ps && p.origin == Nested(ps)[i].origin ==>
      exists e :: e in Nested(ps)[i].values && e.year == p.year
    ensures forall i, e :: 0 <= i < |Nested(ps)| && e in Nested(ps)[i].values ==>
      Mean(Map(Filter(ps, InGroup(Nested(ps)[i].origin, e.year)), PointValue)) == Some(e.avg)
  {
    var groups := Nested(ps);
    forall i | 0 <= i < |groups|
      ensures StrictlyAscending(groups[i].values)
      ensures forall p :: p in ps && p.origin == groups[i].origin ==>
        exists e :: e in groups[i].values && e.year == p.year
      ensures forall e :: e in groups[i].values ==>
        Mean(Map(Filter(ps, InGroup(groups[i].origin, e.year)), PointValue)) == Some(e.avg)
    {
      var o := groups[i].origin;
      var mine := Filter(ps, OfOrigin(o));
      YearlyProperties(mine);
      forall p | p in ps && p.origin == o ensures exists e :: e in groups[i].values && e.year == p.year {
        assert p in mine;
      }
      forall e | e in groups[i].values
        ensures Mean(Map(Filter(ps, InGroup(o, e.year)), PointValue)) == Some(e.avg)
      {
        SeriesAverage(ps, o, e);
      }
    }
  }

  function AvgOf(e: YearAvg): Num
  {
    Some(e.avg)
  }

  /** The largest average of a series, `undefined` for an empty one. */
  function SeriesMax(g: Series): Num
  {
    Max(Map(g.values, AvgOf))
  }

  /** `m` is the largest average over all series. */
  ghost predicate IsLargestAvg(groups: seq<Series>, m: real)
  {
    && (exists i, j :: 0 <= i < |groups| && 0 <= j < |groups[i].values| && groups[i].values[j].avg == m)
    && (forall i, j :: 0 <= i < |groups| && 0 <= j < |groups[i].values| ==> groups[i].values[j].avg <= m)
  }

  /** The y-axis upper bound: 1.1 times the largest average, or 1 when there is
      no average or the product is 0. */
  function YUpper(groups: seq<Series>): (top: real)
    ensures (forall i :: 0 <= i < |groups| ==> |groups[i].values| == 0) ==> top == 1.0
    ensures forall m :: IsLargestAvg(groups, m) ==> top == if m == 0.0 then 1.0 else 11.0 / 10.0 * m
  {
    var maxes := Map(groups, SeriesMax);
    var m := Max(maxes);
    LargestOfSeriesMaxes(groups);
    if m.None? || m.value * (11.0 / 10.0) == 0.0 then 1.0 else m.value * (11.0 / 10.0)
  }

  /** What the connected-scatter effect draws: the series and the y-axis
      upper bound. */
  datatype LineChart = LineChart(groups: seq<Series>, top: real)

  /** The connected-scatter effect: with no filtered records it returns early,
      drawing nothing and leaving the previous chart on screen (`None`);
      otherwise it draws the series of the records' entries. The metric is
      always one of the selector's options, so the `!connectedMetric` test
      never fires. */
  function DrawLines(filtered: seq<Car>, metric: Metric): (chart: Option<LineChart>)
    ensures chart.None? <==> |filtered| == 0
    ensures chart.Some? ==> chart.value.groups == Nested(Points(filtered, metric))
    ensures chart.Some? ==> forall m :: IsLargestAvg(chart.value.groups, m) ==>
      chart.value.top == if m == 0.0 then 1.0 else 11.0 / 10.0 * m
    ensures chart.Some? && |Points(filtered, metric)| == 0 ==>
      chart.value.groups == [] && chart.value.top == 1.0
  {
    if |filtered| == 0 then None
    else
      var groups := Nested(Points(filtered, metric));
      Some(LineChart(groups, YUpper(groups)))
  }

  /** The maximum of a series is its largest average. */
  lemma SeriesMaxIsLargest(g: Series)
    ensures SeriesMax(g).None? <==> |g.values| == 0
    ensures SeriesMax(g).Some? ==> exists j :: 0 <= j < |g.values| && g.values[j].avg == SeriesMax(g).value
    ensures forall j :: 0 <= j < |g.values| ==> SeriesMax(g).Some? && g.values[j].avg <= SeriesMax(g).value
  {
    var vs := Map(g.values, AvgOf);
    if |g.values| > 0 {
      assert vs[0].Some?;
    }
    forall j | 0 <= j < |g.values| ensures vs[j] == Some(g.values[j].avg) {
    }
    if SeriesMax(g).Some? {
      var j :| 0 <= j < |vs| && vs[j] == SeriesMax(g);
      assert g.values[j].avg == SeriesMax(g).value;
    }
  }

  /** The maximum of the per-series maxima is undefined exactly when every
      series is empty. */
  lemma SeriesMaxesDefined(groups: seq<Series>)
    ensures Max(Map(groups, SeriesMax)).None? <==> forall i :: 0 <= i < |groups| ==> |groups[i].values| == 0
  {
    var maxes := Map(groups, SeriesMax);
    forall i | 0 <= i < |groups| ensures maxes[i].None? <==> |groups[i].values| == 0 {
      SeriesMaxIsLargest(groups[i]);
    }
  }

  /** The maximum of the per-series maxima is the largest average overall. */
  lemma LargestOfSeriesMaxes(groups: seq<Series>)
    ensures Max(Map(groups, SeriesMax)).None? <==> forall i :: 0 <= i < |groups| ==> |groups[i].values| == 0
    ensures forall m :: IsLargestAvg(groups, m) ==> Max(Map(groups, SeriesMax)) == Some(m)
  {
    SeriesMaxesDefined(groups);
    var maxes := Map(groups, SeriesMax);
    var m := Max(maxes);
    forall x | IsLargestAvg(groups, x) ensures m == Some(x) {
      LargestIsMax(groups, x);
    }
  }

  lemma LargestIsMax(groups: seq<Series>, x: real)
    requires IsLargestAvg(groups, x)
    ensures Max(Map(groups, SeriesMax)) == Some(x)
  {
    var maxes := Map(groups, SeriesMax);
    var i, j :| 0 <= i < |groups| && 0 <= j < |groups[i].values| && groups[i].values[j].avg == x;
    SeriesMaxIsLargest(groups[i]);
    assert maxes[i] == SeriesMax(groups[i]);
    var m := Max(maxes);
    assert m.Some? && x <= m.value;
    var i' :| 0 <= i' < |maxes| && maxes[i'] == m;
    SeriesMaxIsLargest(groups[i']);
    var j' :| 0 <= j' < |groups[i'].values| && groups[i'].values[j'].avg == m.value;
    assert m.value <= x;
  }
}
